=== FILE: README.md ===
# EduSync request policy in Dafny

This project models the request-policy layer of the EduSync server (`index.js`), a study-session platform where students, tutors and admins share one REST API.

The model covers:

- **Authentication and role gates.** The token cookie check (`verifyJWT`) and the three role gates (`verifyStudent`, `verifyTutor`, `verifyAdmin`), which share one algorithm.
- **Users.** Self-service registration and the admin's role change.
- **Sessions.** Creation and its required-field and schedule checks. Approval, rejection and resubmission. The field update, done identically by the tutor route and the admin route.
- **Reviews.** Posting a review and listing a session's reviews.
- **Bookings.** Creating a booking.
- **Notes.** Create, list, update and delete of student notes.
- **Materials.** Tutor upload and own-list. The admin's paginated listing and deletion.

Each handler is a pure function. It takes a credential, the request fields and a database value `Db`, and returns a status code, a detail and the new database. Along the way the model defines the JavaScript semantics the handlers depend on:

- truthiness (`!v`), `v || default`, `Number(v)` and `parseInt(v)`;
- `new Date(v)` and comparisons with an invalid date;
- `undefined` being written as `null`.

The users collection is a sequence in natural order, because the gates look a user up with `findOne({ email })`, which returns the first match. The other collections are maps from id to document. New ids come from a counter, and `createdAt` grows with them, so "newest first" is descending id order.

Modules follow the server's concerns:

- `Common`: `Option` and a first-match search.
- `Js`: values, number and date coercions.
- `Store`: the documents, `Db` and its invariant `WellFormed`.
- `Http`: status codes and replies.
- `Auth`, `Users`, `Sessions`, `Reviews`, `Bookings`, `Notes`, `Materials`: the handlers.
- `Server`: every modelled mutating route dispatched to its handler, and runs of requests. Session deletion is not modelled (see "## Left out").

Every modelled mutating handler preserves `WellFormed`:

- document keys are below the id counter;
- user ids and emails are unique;
- there is at most one review per session id and student.

Behaviour of the code that the model keeps, including where it surprises:

- **Schedule order.** Creation demands `classStart > registrationEnd`, strictly, so a class may not start at the very moment registration ends.
  - A date that does not parse is an invalid `Date`. Every comparison with it is false, so it passes all three schedule rules.
- **Duplicate review.** A second review by the same student for the same session id is answered 400, not 409.
- **Average rating.** `POST /api/reviews` calls an average-rating helper whose definition is commented out. The call throws after the review has been inserted, so every successful review is answered 500, not 201, and nothing is recomputed.
- **Rating check.** The check coerces the rating with `Number()`, but the stored rating is `parseInt(rating)`. The two coercions read texts differently.
  - `true` passes the check (`Number(true)` is 1) and is stored as NaN.
  - `"4.5"` passes and is stored as 4; `"0b101"` passes (its value is 5) and is stored as 0, outside the range the check enforces.
  - `" 4 "` passes and is stored as 4; `"12px"` is rejected.
  - Uniqueness of reviews is keyed on the session id *text* sent in the body.
- **Session creation.** The stored session is `...req.body` plus the normalised fields, so a client-sent `rejectedBy`, `rejectionReason` or `rejectionFeedback` is copied into the new session.
- **Bad token.** A token that fails verification lands in `verifyJWT`'s catch block and is answered 500, not 401.
- **Notes.** Update and delete address a note by id alone, and listing trusts the `email` query parameter. There is no ownership check.
- **Bookings.** No session-existence check and no duplicate check.
- **Session status.** Approve and reject act from any status. Resubmit answers 400 when nothing is modified, which includes a session that is already pending, so resubmission is not idempotent.
- **Registration roles.** Registration answers 401, not 403, for a role other than student or tutor.

## Model

| member | source | states |
|---|---|---|
| Auth.Authenticate | index.js:68-91 | A missing token cookie is 401; a token that fails verification is 500; a verified token admits exactly its own email claim. |
| Auth.FindByEmail | index.js:122-126 | `findOne({ email })` finds the earliest user registered under the email, and finds nothing exactly when no user has it. |
| Auth.RoleGate | index.js:112-199 | The shared gate: 401 iff there is no principal; 404 iff no account has the principal's email; 403 iff the earliest such account holds another role; admitted iff it holds the required role; no other outcome. |
| Auth.Admit | index.js:68-199 | Token check then role gate: 401 iff no cookie, 500 iff the token does not verify, otherwise the role gate's verdict on the token's email; an admitted request runs as the token's email. |
| Auth.AdmittedIffAccountHasRole | index.js:112-199 | While emails are unique, a principal passes a gate iff the one account under its email holds the required role. |
| Auth.WrongRoleIsForbidden | index.js:128-133 | An account holding a different role is refused with 403, while a request without a token is refused with 401 before any lookup. |
| Users.SelfServiceRole | index.js:218-222 | Registration accepts exactly the roles student and tutor, never admin. |
| Users.AssignableRole | index.js:1011-1013 | An admin may assign exactly admin, tutor or student, and each of those texts maps to its own role. |
| Users.RegisterUser | index.js:202-244 | A missing token is 401 and an unverifiable one 500, with nothing stored; 200 iff the token's email is non-empty, equals the body email, the role is student or tutor and no account has the email; then exactly one user is appended. 400 for a falsy email or role, 403 for an email mismatch, 401 for another role, 409 for a taken email. No admin is ever created; the invariant is kept. |
| Users.UpdateUserRole | index.js:1002-1031 | A refused gate answers its own code (401, 404, 403 or 500) and changes nothing. For an admitted admin: 400 iff the role is not assignable; with an assignable role, 500 iff the id is malformed, 404 iff no user has the id, and 200 whenever a user has it; on 200 exactly that user's role changes and every other user is untouched. |
| Users.RegisteredUserPassesGate | index.js:202-244 | A user who has just registered passes the gate of the role chosen at registration. |
| Users.RegisterTwiceConflicts | index.js:224-227 | Registering the same email again is 409 and changes nothing. |
| Users.RoleChangeTakesEffect | index.js:1015-1026 | After a role change, the changed user passes the gate of the new role. |
| Js.Stored | index.js:1056-1064 | A field written to the store is never undefined: undefined becomes null, and every other value (and its truthiness) is kept. |
| Js.Decimal | index.js:430 | The decimal text `String(n)` of a number is digits, non-empty, and starts with 0 only for zero. |
| Js.DecimalRoundTrip | index.js:430 | Reading the decimal text of a number gives the number back. |
| Js.DigitPrefix | index.js:563 | `parseInt` reads the longest run of leading digits of the radix: all of them are digits and the next character is not. |
| Js.ParseIntOfNumber | index.js:430 | `parseInt` of an integer is that integer: `String` and `parseInt` are inverse. |
| Js.ParseIntAgreesWithNumber | index.js:395-430 | On an optionally signed run of decimal digits with white space around it, `parseInt` and `Number` read the same integer. |
| Js.ParseIntOfKeywords | index.js:430 | `parseInt` of undefined, null or a boolean is NaN. |
| Js.ParseIntReadsPrefix | index.js:430 | `parseInt` reads the decimal digits at the front of a text and ignores whatever follows them. |
| Js.ParseIntOfWord | index.js:1202-1203 | `parseInt` of a text that starts with a letter is NaN. |
| Js.NumberOfIntegerText | index.js:395 | `Number` of an optionally signed run of digits with white space around it is its integer value. |
| Js.NumberOfDecimalText | index.js:395 | `Number` of a plain unsigned text is the value of its decimal literal, NaN when it is none. |
| Js.DecimalLiteralWithPoint | index.js:395 | A decimal literal with a point is the value of all its digits, scaled down by the digits after the point and by the exponent. |
| Js.DecimalLiteralWithoutPoint | index.js:395 | A decimal literal without a point is the value of its digits, scaled by the exponent. |
| Js.CoercionsOfFraction | index.js:395-430 | `Number("4.5")` is 4.5 while `parseInt("4.5")` is 4. |
| Js.CoercionsOfExponent | index.js:395-430 | `Number("1e3")` is 1000 while `parseInt("1e3")` is 1. |
| Js.CoercionsOfBinary | index.js:395-430 | `Number("0b101")` is 5 while `parseInt("0b101")` is 0. |
| Js.CoercionsOfHex | index.js:395-430 | `Number("0x1A")` and `parseInt("0x1A")` are both 26. |
| Js.CoercionsOfUnit | index.js:395-430 | `Number("12px")` is NaN while `parseInt("12px")` is 12. |
| Js.CoercionsOfPaddedInteger | index.js:395-430 | `Number(" 4 ")` and `parseInt(" 4 ")` are both 4. |
| Js.LocalPart | index.js:429 | `email.split("@")[0]` is the prefix of the email before its first '@' (all of it when there is none). |
| Sessions.FirstMissing | index.js:298-315 | The first required field, in the source's order, that is falsy; none iff all ten are truthy. |
| Sessions.ScheduleViolation | index.js:317-340 | No rule is broken iff each of the three adjacent pairs (registration start and end, class start and end, registration end and class start) is strictly ordered whenever both of its dates are valid; the rule reported is the first broken one in the order the source checks them, and it names a pair of valid dates in the wrong order. |
| Sessions.ValidScheduleIffStrictlyIncreasing | index.js:323-340 | On four valid dates, creation's schedule checks pass iff registration start < registration end < class start < class end. |
| Sessions.NonAdjacentDatesUnchecked | index.js:317-340 | Only adjacent pairs are compared: a registration start after the class start passes when the registration end is invalid. |
| Sessions.InvalidDatesPassScheduleRules | index.js:317-340 | Four unparsable dates break none of the schedule rules. |
| Sessions.ValidateAndInsert | index.js:296-361 | 201 iff all ten required fields are truthy and the schedule is plausible; a missing field is 400 naming the first one missing; with every field present, a broken schedule is 400 naming the first broken rule; on 201 the new session is stored under a fresh id and nothing else changes. |
| Sessions.CreateSession | index.js:291-367 | Tutor-gated; a created session is pending, has no students, keeps the body's tutor email, and carries whatever rejecting admin the body sent (the body is spread into the session); the invariant is kept. |
| Sessions.ApproveSession | index.js:1047-1076 | A refused gate answers its own code and changes nothing; for an admin, 500 iff the id is malformed. 200 iff an admin names a stored session; it becomes approved from any status and takes the body's fee; all other fields and documents are kept; 404 iff the id is well formed but unknown. |
| Sessions.RejectSession | index.js:1079-1120 | A refused gate answers its own code and changes nothing. For an admin, a falsy reason or feedback is 400 before the id is looked at; with both given, 500 iff the id is malformed and 404 iff it is well formed but unknown; 200 iff both are given and the session exists; it becomes rejected from any status, recording reason, feedback and the admin's email. |
| Sessions.ResubmitSession | index.js:584-617 | A refused gate answers its own code and changes nothing; for a tutor, an empty id is 400 and otherwise a malformed id is 500. 200 iff a tutor names a stored session that is not pending; then only its status changes, to pending; unknown or already pending is 400. |
| Sessions.FeeOf | index.js:563 | `parseInt(fee) \|\| 0`: the parsed integer when there is one, otherwise 0. |
| Sessions.FeeOfValues | index.js:563 | The stored fee of a number is that number, of an integer text its value, and of a missing or empty fee 0. |
| Sessions.FeeOfOddTexts | index.js:563 | Where the fee departs from `Number`: "12px" is stored as 12, "4.5" as 4 and "0b101" as 0. |
| Sessions.UpdateSessionFields | index.js:546-573 | With title and description truthy, 500 iff the id is malformed. 200 iff title and description are truthy and the session exists; the session afterwards is the one before with exactly title, description, maximum, the four dates (as sent, undefined as null) and the fee replaced, so status, tutor, enrolment, duration and the rejection fields are kept; the fee is `parseInt(fee) \|\| 0`. |
| Sessions.UpdateSessionByTutor | index.js:528-581 | Tutor-gated; a refused gate changes nothing; an admitted tutor gets exactly the shared update `UpdateSessionFields`. |
| Sessions.UpdateSessionByAdmin | index.js:1123-1171 | Admin-gated; a refused gate changes nothing; an admitted admin gets exactly the shared update `UpdateSessionFields`. |
| Sessions.UpdateRoutesAgree | index.js:1123-1171 | Past their gates, the tutor route and the admin route give identical answers and databases. |
| Sessions.ResubmitTwiceIsRefused | index.js:596-606 | Resubmitting a session twice: the second call is 400 and changes nothing. |
| Sessions.RejectResubmitApprove | index.js:1095-1114 | Reject, then resubmit, then approve all succeed and take the session through rejected, pending and approved. |
| Reviews.RatingAcceptedIffInRange | index.js:395-399 | The rating check accepts exactly the values whose `Number` coercion is a finite number from 1 to 5, fractions included. |
| Reviews.RatingExamples | index.js:395-399 | 0, 6 and a missing rating are rejected; 4 and true are accepted. |
| Reviews.RatingTextExamples | index.js:395-399 | The rating text is coerced as a whole, white space aside: "12px" is rejected, " 4 " accepted. |
| Reviews.StoredRating | index.js:395-430 | An accepted number, or an accepted integer text, is stored as the same integer from 1 to 5; an accepted true is stored as NaN. |
| Reviews.FractionalRatingTruncated | index.js:395-430 | "4.5" passes the check and is stored as 4. |
| Reviews.BinaryRatingStoredAsZero | index.js:395-430 | "0b101" passes the check and is stored as 0, outside the range the check enforces. |
| Reviews.PostReview | index.js:385-450 | A refused gate answers its own code and changes nothing. The store changes iff an admitted student's review has a valid id, an accepted rating, an approved session and no earlier review by that student for that id text; then exactly one review is inserted and the answer is 500. 400 for a bad id, bad rating or repeat review; 404 iff the session is absent or not approved; never 201. |
| Reviews.ReviewAuthorIsPrincipal | index.js:427-434 | The stored review names the verified student and the posted id text, and falls back to the email's local part when no name is sent. |
| Reviews.StoredReviewRating | index.js:395-430 | A stored review holds `parseInt` of the posted rating, which is from 1 to 5 when the rating was a number or an integer text. |
| Reviews.SecondReviewRefused | index.js:414-424 | After a review is stored, another review by the same student for the same id text is 400 and changes nothing. |
| Reviews.ListReviews | index.js:708-738 | 400 iff the id is malformed, 404 iff it is well formed but names no session, 200 iff it names a stored session; the list holds exactly the reviews filed under that id text. |
| Reviews.PostedReviewIsListed | index.js:726-733 | A stored review appears in its session's review list with the verified student's email. |
| Bookings.CreateBooking | index.js:741-784 | 201 iff an admitted student sends truthy session id, student email and tutor email and the session id is a valid id; with the three fields given, 500 iff the session id is malformed; the inserted booking is the parsed session id, the body's emails, names, fee and session title (undefined as null) and the two class dates as dates; 400 iff a required field is falsy; a refused gate answers its own code and changes nothing. |
| Bookings.BookingIgnoresSessions | index.js:741-784 | The answer does not depend on the sessions collection at all. |
| Bookings.DuplicateBookingAccepted | index.js:755-779 | The same booking succeeds twice, storing two identical bookings. |
| Notes.CreateNote | index.js:817-859 | A refused gate answers its own code and changes nothing. 201 iff an admitted student sends email, title and description; the note is stored under a fresh id; 400 iff one is falsy. |
| Notes.ListNotes | index.js:862-887 | A refused gate answers its own code with no list. 200 iff an admitted student gives an email, and 400 with no list when the email is missing or falsy; the list holds exactly the notes whose owner field equals it. |
| Notes.UpdateNote | index.js:890-926 | For an admitted student, a falsy title or description is 400 with nothing changed. 200 iff title and description are truthy and the note exists; title and description are replaced and the owner kept; with both given, 500 iff the id is malformed and 404 iff it is unknown; a refused gate answers its own code and changes nothing. |
| Notes.DeleteNote | index.js:929-951 | A refused gate answers its own code and changes nothing. For a student, 500 iff the id is malformed, 404 iff it is well formed but unknown, and 200 iff the note exists; exactly that note is removed. |
| Notes.DeleteIgnoresOwner | index.js:937-943 | Any two admitted students get the same answer to a delete, whoever owns the note. |
| Notes.CreateThenDelete | index.js:929-951 | Deleting a just-created note restores the notes, and a second delete is 404. |
| Notes.CreatedNoteIsListed | index.js:874-881 | A created note is listed under the email it was created with. |
| Materials.CreateMaterial | index.js:641-688 | 201 iff an admitted tutor sends title, session id, session title and tutor email; the inserted material is exactly the body's title, session id, session title and tutor email with the image and drive link kept when truthy and the empty text otherwise; 400 iff a required field is falsy; a refused gate answers its own code and changes nothing. |
| Materials.ListTutorMaterials | index.js:691-705 | A refused gate answers its own code with no list. The list holds exactly the materials whose tutor email is the verified caller's. |
| Materials.UploadVisibleToUploader | index.js:697-699 | An upload shows in the uploader's own list iff its body named the uploader's email. |
| Materials.NewestKeys | index.js:1205-1207 | The stored ids, each exactly once, in strictly decreasing order. |
| Materials.NewestFirstCountsEveryMaterial | index.js:1205-1207 | While the store is well formed, the newest-first listing has exactly one entry per stored material. |
| Js.IntOrOfNumber | index.js:1202-1203 | `parseInt(n) \|\| d` is n for a non-zero number and the default for 0. |
| Js.IntOrOfText | index.js:1202-1203 | For a query text: an integer text reads as its value unless that is 0; an empty text or one starting with a letter gives the default. |
| Js.IntOrOfMissing | index.js:1202-1203 | A missing page or limit gives the default. |
| Materials.PageSlice | index.js:1208-1209 | `skip(s).limit(n)`: at most n items, the first min(n, remaining) items from position s on, none past the end. |
| Materials.ListMaterialsPage | index.js:1200-1218 | A refused gate answers its own code with no page. 200 iff an admin asks for a non-negative skip, and a negative skip fails the query with 500; the page is the slice of the newest-first listing that starts at the skip and holds min(limit's magnitude, remaining) materials, so full pages, the partial last page and pages past the end are all fixed; the total counts every material. |
| Materials.DefaultPageIsTenNewest | index.js:1202-1210 | Without page and limit, the page is the ten newest materials (all of them when fewer). |
| Materials.ListingIsComplete | index.js:1205-1207 | Every stored material appears in the listing the pages are cut from. |
| Materials.DeleteMaterial | index.js:1221-1249 | A refused gate answers its own code and changes nothing. For an admin, 400 iff the id is malformed and 404 iff it is well formed but unknown; 200 iff the material exists, then exactly it is removed. |
| Materials.DeleteTwiceIsNotFound | index.js:1234-1240 | A second delete of the same material is 404. |
| Server.HandleKeepsWellFormed | index.js:202-1249 | Every modelled mutating route (session deletion is left out), whatever its input and outcome, keeps the invariant: keys below the id counter, unique user ids and emails, one review per session id and student. |
| Server.RunKeepsWellFormed | index.js:202-1249 | The invariant holds after any sequence of modelled requests. |
| Server.HandleMakesNoAdmin | index.js:218-222 | In a store without an admin, no request creates one: registration offers only student and tutor, and the role change is behind the admin gate. |
| Server.RunMakesNoAdmin | index.js:218-222 | A store that starts without an admin has none after any sequence of requests. |
| Store.InsertReviewKeepsWellFormed | index.js:414-436 | Inserting a review for a student who has none for that session id text keeps the invariant. |
| Store.ReplaceUserKeepsWellFormed | index.js:1015-1020 | Replacing a user by one with the same id and email, as a role change does, keeps the invariant. |

## Left out

- **Express plumbing.** Routing, CORS, cookie parsing and the JSON bodies of replies are not modelled. A reply is a status code plus the fact the client needs, such as the new id.
- **Token issuing and clearing.** `/api/generate-jwt` and `/api/clear-cookie` are left out. Signing and verifying JWTs is the library's job, so a credential is either missing, unverifiable or a verified email.
- **Id parsing.** `ObjectId.isValid` and `new ObjectId(..)` are an uninterpreted parser parameter.
  - Numbers, which the driver also accepts as ids, are treated as invalid.
- **Date parsing and clocks.** `new Date(text)` is a parameter. Server timestamps are not stored: `createdAt`, `updatedAt`, `approvedAt`, `rejectedAt` and `bookingDate`.
  - Rejection always modifies a matched session because `rejectedAt` is fresh, so the model answers 404 only for an unknown id. That assumes the clock advances between two rejections.
- **Listing order.** The admin's materials listing is modelled newest first, with ties between equal `createdAt` values broken by id. The review list (index.js:730) and the note list (index.js:878) are also sorted newest first, but the model returns them as maps from id to document, so their order is dropped.
- **Driver result shapes.** The 404 branches of session approval, the role change and the note update assume `findOneAndUpdate` returns `null` when nothing matches, as current drivers do. The note update then replies with `updatedNote.value` (index.js:920), which assumes the older result-object shape. The model takes the `null` reading and does not model the reply body.
- **Average rating.** The recomputation is not modelled: its helper is commented out in the source, so the call fails.
- **Unmodelled routes.** These are not part of this model:
  - user lookup;
  - tutor list;
  - approved-session list;
  - session details;
  - a tutor's own sessions;
  - a student's booked sessions;
  - materials by session;
  - the admin's user search (a regular expression);
  - all-sessions list;
  - session deletion;
  - the root route;
  - server start-up.
- **Body and query values.** Body and query values are undefined, null, booleans, integers and strings. Fractional numbers, arrays and objects are left out. That includes query objects such as `?email[$ne]=x`, which the note listing would pass to `find` unchanged.
- **Session body extras.** Of the fields `...req.body` copies into a new session, only the three rejection fields are modelled. Other extra body fields, including a client-sent `_id`, are left out.
- **Storage failures.** An insert or update that fails inside the driver is left out. So are the handlers' `!result.insertedId` branches (registration 401, material 500, note 500, booking 401, which then sends a second reply, and session creation's 400 "Something went wrong" at index.js:357-361), since an insert here always succeeds.
- **Registration catch.** Registration's catch block only logs and never answers; no exception reaches it in the model.
- **Concurrency.** Concurrent requests and the lack of atomicity between two storage calls are not modelled: each request runs alone.
- Js.TextToNumber: values are exact reals, so the rounding of a long decimal literal to the nearest double and overflow to Infinity are not modelled, and neither is `Number` of a JSON fraction (a body number is an integer).
- Js.ParseIntOfNumber: numbers of 21 or more digits, which JavaScript prints in exponent form before `parseInt` reads them, are read as their full value.
- Sessions.FeeOf: inherits the limit of `Js.ParseIntOfNumber`.
- Js.IntOrOfNumber: inherits the limit of `Js.ParseIntOfNumber`.

=== FILE: auth.dfy ===
/**
 * Authentication (the token cookie) and the three role gates
 * `verifyStudent`, `verifyTutor` and `verifyAdmin`, which run one algorithm
 * with a different required role: no principal is 401, no user record for
 * the principal's email is 404, a different stored role is 403.
 */
module Auth {
  import opened Common
  import opened Store
  import opened Http

  /**
   * The token cookie as the JWT layer sees it. Signature and expiry checks
   * belong to the JWT library: a token either verifies to its email claim
   * or it does not.
   */
  datatype Credential = NoToken | Unverifiable | Token(email: Email)

  /** The outcome of a gate: the request continues as `email`, or it ends with `code`. */
  datatype Verdict = Admitted(email: Email) | Refused(code: int)

  /** `verifyJWT`: a missing cookie is 401, but a token that fails to verify
      lands in the catch block and is 500. */
  function Authenticate(cred: Credential): (v: Verdict)
    ensures v.Admitted? <==> cred.Token?
    ensures v.Admitted? ==> v.email == cred.email
    ensures cred.NoToken? ==> v == Refused(Unauthorized)
    ensures cred.Unverifiable? ==> v == Refused(ServerError)
  {
    match cred
    case NoToken => Refused(Unauthorized)
    case Unverifiable => Refused(ServerError)
    case Token(e) => Admitted(e)
  }

  /** `k` is the position of the first user registered under `e`. */
  predicate EarliestAccount(users: seq<User>, e: Email, k: int) {
    0 <= k < |users| && users[k].email == e && forall j :: 0 <= j < k ==> users[j].email != e
  }

  /** `usersCollection.findOne({ email })`. */
  function FindByEmail(users: seq<User>, e: Email): (r: Option<nat>)
    ensures r.Some? ==> EarliestAccount(users, e, r.value)
    ensures r.None? <==> !HasAccount(users, e)
  {
    FirstMatch(users, (u: User) => u.email == e)
  }

  /** The shared body of the three role gates. */
  function RoleGate(principal: Option<Email>, required: Role, users: seq<User>): (v: Verdict)
    ensures v == Refused(Unauthorized) <==> principal.None?
    ensures v == Refused(NotFound) <==> principal.Some? && !HasAccount(users, principal.value)
    ensures v == Refused(Forbidden) <==>
      principal.Some? && exists k :: EarliestAccount(users, principal.value, k) && users[k].role != required
    ensures v.Admitted? <==>
      principal.Some? && exists k :: EarliestAccount(users, principal.value, k) && users[k].role == required
    ensures v.Admitted? ==> principal == Some(v.email)
    ensures v.Refused? ==> v.code in {Unauthorized, NotFound, Forbidden}
  {
    if principal.None? then Refused(Unauthorized)
    else
      match FindByEmail(users, principal.value)
      case None => Refused(NotFound)
      case Some(k) => if users[k].role != required then Refused(Forbidden) else Admitted(principal.value)
  }

  /** `verifyJWT` followed by one role gate, as every gated route is mounted. */
  function Admit(cred: Credential, required: Role, users: seq<User>): (v: Verdict)
    ensures v.Admitted? ==> cred == Token(v.email)
    ensures v.Refused? ==> v.code in {Unauthorized, NotFound, Forbidden, ServerError}
    ensures v == Refused(Unauthorized) <==> cred.NoToken?
    ensures v == Refused(ServerError) <==> cred.Unverifiable?
    ensures cred.Token? ==> v == RoleGate(Some(cred.email), required, users)
  {
    match Authenticate(cred)
    case Refused(c) => Refused(c)
    case Admitted(e) => RoleGate(Some(e), required, users)
  }

  /** While emails are unique, a principal passes a gate exactly when the
      one user registered under its email holds the required role. */
  lemma AdmittedIffAccountHasRole(e: Email, required: Role, users: seq<User>)
    requires UniqueEmails(users)
    ensures RoleGate(Some(e), required, users).Admitted? <==>
      exists k :: 0 <= k < |users| && users[k].email == e && users[k].role == required
  {
  }

  /** A principal whose account holds a role other than the required one
      is refused with 403, and nothing is consulted before the token. */
  lemma WrongRoleIsForbidden(e: Email, held: Role, required: Role, users: seq<User>)
    requires UniqueEmails(users)
    requires held != required
    requires exists k :: 0 <= k < |users| && users[k].email == e && users[k].role == held
    ensures Admit(Token(e), required, users) == Refused(Forbidden)
    ensures Admit(NoToken, required, users) == Refused(Unauthorized)
  {
  }
}

=== FILE: bookings.dfy ===
/**
 * `POST /api/booking` (student). Only three fields are required; the
 * handler neither looks the session up nor checks for an earlier booking
 * of the same session by the same student, and it records the student
 * email the body names rather than the verified one.
 */
module Bookings {
  import opened Common
  import opened Js
  import opened Store
  import opened Http
  import opened Auth

  datatype BookingBody = BookingBody(
    sessionId: Value,
    studentEmail: Value,
    studentName: Value,
    tutorEmail: Value,
    tutorName: Value,
    registrationFee: Value,
    sessionTitle: Value,
    classStart: Value,
    classEnd: Value)

  /** `new ObjectId(v)` for a body field: None where the constructor throws. */
  function IdOfField(v: Value, parse: IdParser): Option<Id> {
    if v.Str? then parse(v.s) else None
  }

  /** The booking document inserted for `body`. */
  function NewBooking(body: BookingBody, sessionId: Id, parseDate: string -> Instant): Booking {
    Booking(sessionId, Stored(body.studentEmail), Stored(body.studentName), Stored(body.tutorEmail),
            Stored(body.tutorName), Stored(body.registrationFee), Stored(body.sessionTitle),
            NewDate(body.classStart, parseDate), NewDate(body.classEnd, parseDate))
  }

  /** `POST /api/booking`: 400 when session id, student email or tutor email
      is falsy; a session id the driver rejects throws (500); otherwise the
      booking is inserted. */
  function CreateBooking(cred: Credential, body: BookingBody, parse: IdParser, parseDate: string -> Instant, db: Db): (r: Reply)
    ensures r.code == Created <==>
      && Admit(cred, Student, db.users).Admitted?
      && Truthy(body.sessionId) && Truthy(body.studentEmail) && Truthy(body.tutorEmail)
      && IdOfField(body.sessionId, parse).Some?
    ensures Admit(cred, Student, db.users).Refused? ==> r == Refuse(Admit(cred, Student, db.users).code, db)
    ensures (Admit(cred, Student, db.users).Admitted? && Truthy(body.sessionId) && Truthy(body.studentEmail)
             && Truthy(body.tutorEmail)) ==> (r.code == ServerError <==> IdOfField(body.sessionId, parse).None?)
    ensures Admit(cred, Student, db.users).Admitted? ==>
      (r.code == BadRequest <==> !Truthy(body.sessionId) || !Truthy(body.studentEmail) || !Truthy(body.tutorEmail))
    ensures r.code == Created ==>
      && r.detail == NewId(db.nextId)
      && db.nextId in r.db.bookings
      && r.db == db.(bookings := db.bookings[db.nextId := r.db.bookings[db.nextId]], nextId := db.nextId + 1)
      && r.db.bookings[db.nextId] == Booking(
           IdOfField(body.sessionId, parse).value, body.studentEmail, Stored(body.studentName), body.tutorEmail,
           Stored(body.tutorName), Stored(body.registrationFee), Stored(body.sessionTitle),
           NewDate(body.classStart, parseDate), NewDate(body.classEnd, parseDate))
    ensures r.code != Created ==> r.db == db
    ensures WellFormed(db) ==> WellFormed(r.db)
  {
    match Admit(cred, Student, db.users)
    case Refused(c) => Refuse(c, db)
    case Admitted(_) =>
      if !Truthy(body.sessionId) || !Truthy(body.studentEmail) || !Truthy(body.tutorEmail) then Refuse(BadRequest, db)
      else
        match IdOfField(body.sessionId, parse)
        case None => Refuse(ServerError, db)
        case Some(id) =>
          Reply(Created, NewId(db.nextId),
            db.(bookings := db.bookings[db.nextId := NewBooking(body, id, parseDate)], nextId := db.nextId + 1))
  }

  /** The answer does not depend on the sessions collection: a booking for a
      session that does not exist, or is not approved, goes through alike. */
  lemma BookingIgnoresSessions(cred: Credential, body: BookingBody, parse: IdParser, parseDate: string -> Instant,
                               db: Db, sessions: map<Id, Session>)
    ensures var other := db.(sessions := sessions);
      CreateBooking(cred, body, parse, parseDate, other).code == CreateBooking(cred, body, parse, parseDate, db).code
  {
  }

  /** Booking the same session twice succeeds twice: no uniqueness is enforced. */
  lemma DuplicateBookingAccepted(cred: Credential, body: BookingBody, parse: IdParser, parseDate: string -> Instant, db: Db)
    requires CreateBooking(cred, body, parse, parseDate, db).code == Created
    ensures var db1 := CreateBooking(cred, body, parse, parseDate, db).db;
      var db2 := CreateBooking(cred, body, parse, parseDate, db1).db;
      && CreateBooking(cred, body, parse, parseDate, db1).code == Created
      && db.nextId in db2.bookings && db1.nextId in db2.bookings && db.nextId != db1.nextId
      && db2.bookings[db.nextId] == db2.bookings[db1.nextId]
  {
  }
}

=== FILE: common.dfy ===
/**
 * Shared vocabulary of the model: an optional value and the first-match
 * search that a document store's `findOne` performs when it scans a
 * collection in natural (insertion) order.
 */
module Common {

  datatype Option<+T> = None | Some(value: T)

  /** Index of the first element of `xs` that satisfies `p`, if any. */
  function FirstMatch<T>(xs: seq<T>, p: T -> bool): (r: Option<nat>)
    ensures r.Some? ==> r.value < |xs| && p(xs[r.value])
    ensures r.Some? ==> forall j :: 0 <= j < r.value ==> !p(xs[j])
    ensures r.None? <==> forall j :: 0 <= j < |xs| ==> !p(xs[j])
    decreases |xs|
  {
    if xs == [] then None
    else if p(xs[0]) then Some(0)
    else
      match FirstMatch(xs[1..], p)
      case None => None
      case Some(k) => Some(k + 1)
  }
}

=== FILE: http.dfy ===
/**
 * What a handler answers: a status code, a detail a client can act on, and
 * the database as the handler leaves it. Read-only handlers answer a code
 * and, on success, a value.
 */
module Http {
  import opened Common
  import opened Store

  const Ok: int := 200
  const Created: int := 201
  const BadRequest: int := 400
  const Unauthorized: int := 401
  const Forbidden: int := 403
  const NotFound: int := 404
  const Conflict: int := 409
  const ServerError: int := 500

  /** The three ordering rules of a new session's schedule, in the order they are checked. */
  datatype DateRule = RegistrationEndsAfterStart | ClassEndsAfterStart | ClassStartsAfterRegistration

  datatype Detail =
    | NoDetail
    | FieldRequired(field: string)
    | BadSchedule(rule: DateRule)
    | NewId(id: Id)

  datatype Reply = Reply(code: int, detail: Detail, db: Db)

  datatype Answer<T> = Answer(code: int, value: Option<T>)

  function Refuse(code: int, db: Db): Reply {
    Reply(code, NoDetail, db)
  }
}

=== FILE: js.dfy ===
/**
 * The part of JavaScript's value semantics that the request handlers rely on:
 * truthiness (`!v`), numeric coercion (`Number(v)`, `isNaN(v)`, `v < 1`),
 * `parseInt(v)`, `new Date(v)` with its comparisons, `v || fallback`, and
 * `email.split("@")[0]`.
 */
module Js {
  import opened Common

  /**
   * A JSON value as a request body or query field carries it. A field that
   * is absent reads as Undefined; in a stored record Undefined means the
   * field is absent from the document.
   */
  datatype Value = Undefined | Null | Bool(b: bool) | Num(n: int) | Str(s: string)

  /** `!!v`: only undefined, null, false, 0 and the empty string are falsy. */
  predicate Truthy(v: Value) {
    match v
    case Undefined => false
    case Null => false
    case Bool(b) => b
    case Num(n) => n != 0
    case Str(s) => s != ""
  }

  /** `v || fallback` */
  function Or(v: Value, fallback: Value): Value {
    if Truthy(v) then v else fallback
  }

  /** The value a document keeps when a handler writes `v` into a field:
      the driver serializes undefined as null. */
  function Stored(v: Value): (w: Value)
    ensures !w.Undefined?
    ensures v.Undefined? ==> w == Null
    ensures !v.Undefined? ==> w == v
    ensures Truthy(w) == Truthy(v)
  {
    if v.Undefined? then Null else v
  }

  // ---------------------------------------------------------------------
  // Numbers. A JSON number in a body is integral in this model (`Num`);
  // `Number(text)` may still denote a fraction, which is kept exact.
  // ---------------------------------------------------------------------

  /** What `parseInt` returns: an integer, or NaN. */
  datatype Number = NaN | Int(i: int)

  /** What `Number(v)` returns: NaN, a finite value, or an infinity. The value
      is exact; rounding to the nearest double is not modelled. */
  datatype Numeric = NotANumber | Finite(x: real) | Infinite(positive: bool)

  /** White space and line terminators (sections 12.2 and 12.3 of ECMA-262):
      what `Number` trims and `parseInt` skips. */
  predicate IsSpace(c: char) {
    var u := c as int;
    || 0x09 <= u <= 0x0D || u == 0x20 || u == 0xA0 || u == 0x1680 || 0x2000 <= u <= 0x200A
    || u == 0x2028 || u == 0x2029 || u == 0x202F || u == 0x205F || u == 0x3000 || u == 0xFEFF
  }

  /** `s` without its leading white space. */
  function TrimStart(s: string): (t: string)
    ensures t == [] || !IsSpace(t[0])
  {
    if s != [] && IsSpace(s[0]) then TrimStart(s[1..]) else s
  }

  /** `s` without its trailing white space. */
  function TrimEnd(s: string): (t: string)
    ensures t <= s
    ensures |t| < |s| ==> IsSpace(s[|t|])
    ensures t == [] || !IsSpace(t[|t| - 1])
  {
    if s != [] && IsSpace(s[|s| - 1]) then TrimEnd(s[..|s| - 1]) else s
  }

  /** `s.trim()`. */
  function Trim(s: string): string {
    TrimEnd(TrimStart(s))
  }

  /** The value of `c` as a digit of a radix up to 16 (0-9, then a-f or A-F),
      and 16 for a character that is no such digit. */
  function DigitValue(c: char): (d: nat)
    ensures d <= 16
    ensures d < 10 <==> '0' <= c <= '9'
  {
    if '0' <= c <= '9' then c as int - '0' as int
    else if 'a' <= c <= 'f' then c as int - 'a' as int + 10
    else if 'A' <= c <= 'F' then c as int - 'A' as int + 10
    else 16
  }

  predicate IsDigitIn(c: char, radix: nat) {
    DigitValue(c) < radix
  }

  predicate IsDigit(c: char) {
    IsDigitIn(c, 10)
  }

  predicate AllDigitsIn(s: string, radix: nat) {
    forall i :: 0 <= i < |s| ==> IsDigitIn(s[i], radix)
  }

  predicate AllDigits(s: string) {
    AllDigitsIn(s, 10)
  }

  function DigitChar(d: nat): (c: char)
    requires d < 10
    ensures IsDigit(c) && DigitValue(c) == d
  {
    ('0' as int + d) as char
  }

  /** The number a string of digits in `radix` denotes, most significant first. */
  function RadixValue(s: string, radix: nat): nat
    requires AllDigitsIn(s, radix)
  {
    if s == [] then 0 else radix * RadixValue(s[..|s| - 1], radix) + DigitValue(s[|s| - 1])
  }

  /** `String(n)` for a non-negative integer: its digits, with no leading zero. */
  function Decimal(n: nat): (s: string)
    ensures 0 < |s| && AllDigits(s)
    ensures s[0] == '0' <==> n == 0
  {
    if n < 10 then [DigitChar(n)] else Decimal(n / 10) + [DigitChar(n % 10)]
  }

  /** `String(n)` for any integer. */
  function NumberText(n: int): string {
    if n < 0 then "-" + Decimal(-n) else Decimal(n)
  }

  /** `String(v)`: the text `parseInt` actually parses. */
  function Text(v: Value): string {
    match v
    case Undefined => "undefined"
    case Null => "null"
    case Bool(b) => if b then "true" else "false"
    case Num(n) => NumberText(n)
    case Str(s) => s
  }

  /** Length of the longest run of digits in `radix` at the front of `s`. */
  function DigitPrefix(s: string, radix: nat): (k: nat)
    ensures k <= |s|
    ensures forall i :: 0 <= i < k ==> IsDigitIn(s[i], radix)
    ensures k < |s| ==> !IsDigitIn(s[k], radix)
  {
    if s == [] || !IsDigitIn(s[0], radix) then 0 else 1 + DigitPrefix(s[1..], radix)
  }

  /** The value of the longest run of digits in `radix` at the front of `s`;
      None when `s` does not start with such a digit. */
  function LeadingValue(s: string, radix: nat): Option<nat> {
    var k := DigitPrefix(s, radix);
    if k == 0 then None else Some(RadixValue(s[..k], radix))
  }

  /** A numeric text that starts with a minus sign. */
  predicate Negative(s: string) {
    |s| > 0 && s[0] == '-'
  }

  /** `n`, negated when `negative` holds. */
  function Signed(negative: bool, n: int): int {
    if negative then -n else n
  }

  /** A numeric text without its leading sign character, if it has one. */
  function Unsigned(s: string): string {
    if |s| > 0 && (s[0] == '-' || s[0] == '+') then s[1..] else s
  }

  /** The `0x` or `0X` with which `parseInt` switches to hexadecimal. */
  predicate HasHexPrefix(u: string) {
    |u| >= 2 && u[0] == '0' && (u[1] == 'x' || u[1] == 'X')
  }

  /** `parseInt(s)` without a radix (section 19.2.5 of ECMA-262): leading white
      space is skipped and a sign read; a `0x`/`0X` prefix selects radix 16,
      anything else radix 10; the result is the value of the longest run of
      digits that follows, NaN when there is none. The rest is ignored. */
  function ParseIntText(s: string): Number {
    var t := TrimStart(s);
    var u := Unsigned(t);
    var run := if HasHexPrefix(u) then LeadingValue(u[2..], 16) else LeadingValue(u, 10);
    if run.None? then NaN else Int(Signed(Negative(t), run.value))
  }

  /** `parseInt(v)`, which parses `String(v)`. */
  function ParseInt(v: Value): Number {
    ParseIntText(Text(v))
  }

  /** 10 to the power `n`. */
  function Pow10(n: nat): (p: nat)
    ensures p >= 1
  {
    if n == 0 then 1 else 10 * Pow10(n - 1)
  }

  /** 10 to the power `e`, for any integer `e`. */
  function Scale(e: int): (x: real)
    ensures x > 0.0
  {
    if e >= 0 then Pow10(e) as real else 1.0 / Pow10(-e) as real
  }

  /** The power of ten an exponent part denotes: nothing at all is 0, else
      `e` or `E`, an optional sign and at least one digit. */
  function ExponentPart(x: string): Option<int> {
    if x == [] then Some(0)
    else if x[0] != 'e' && x[0] != 'E' then None
    else
      var e := Unsigned(x[1..]);
      if e != [] && AllDigits(e) then Some(Signed(Negative(x[1..]), RadixValue(e, 10))) else None
  }

  /** The value of the digits of a decimal literal, of which the last `f`
      follow the point, times the exponent part that comes after them. */
  function ScaledDigits(digits: string, f: nat, exponent: string): Option<real>
    requires AllDigits(digits)
  {
    if digits == [] then None
    else match ExponentPart(exponent)
      case None => None
      case Some(e) => Some(RadixValue(digits, 10) as real * Scale(e - f))
  }

  /** The value of an unsigned decimal literal (StrUnsignedDecimalLiteral,
      section 7.1.4.1 of ECMA-262): digits, a point and digits, with at least
      one digit in all, then an optional exponent. */
  function DecimalLiteral(u: string): Option<real> {
    var k := DigitPrefix(u, 10);
    if k < |u| && u[k] == '.' then
      var fraction := u[k + 1..];
      var f := DigitPrefix(fraction, 10);
      ScaledDigits(u[..k] + fraction[..f], f, fraction[f..])
    else ScaledDigits(u[..k], 0, u[k..])
  }

  /** The radix a `0x`, `0o` or `0b` prefix (either case) selects in `Number`;
      0 for any other letter. */
  function PrefixRadix(c: char): nat {
    if c == 'x' || c == 'X' then 16
    else if c == 'o' || c == 'O' then 8
    else if c == 'b' || c == 'B' then 2
    else 0
  }

  /** The digits after a `0x`, `0o` or `0b` prefix: at least one, all in `radix`. */
  function RadixLiteral(digits: string, radix: nat): Numeric {
    if digits != [] && AllDigitsIn(digits, radix) then Finite(RadixValue(digits, radix) as real) else NotANumber
  }

  /** `Number(s)` on a string (StringToNumber, section 7.1.4.1 of ECMA-262):
      surrounding white space is ignored and the empty text is 0; `0x`, `0o`
      or `0b` with digits of radix 16, 8 or 2 gives their value, with no sign
      allowed; otherwise an optional sign, then `Infinity` or a decimal
      literal. Anything else is NaN. */
  function TextToNumber(s: string): Numeric {
    var t := Trim(s);
    if t == "" then Finite(0.0)
    else if |t| >= 2 && t[0] == '0' && PrefixRadix(t[1]) > 0 then RadixLiteral(t[2..], PrefixRadix(t[1]))
    else
      var u := Unsigned(t);
      if u == "Infinity" then Infinite(!Negative(t))
      else match DecimalLiteral(u)
        case None => NotANumber
        case Some(x) => Finite(if Negative(t) then -x else x)
  }

  /** `Number(v)`: the coercion behind `isNaN(v)` and `v < 1`. */
  function ToNumber(v: Value): Numeric {
    match v
    case Undefined => NotANumber
    case Null => Finite(0.0)
    case Bool(b) => Finite(if b then 1.0 else 0.0)
    case Num(n) => Finite(n as real)
    case Str(s) => TextToNumber(s)
  }

  /** `n < k`; NaN compares false. */
  predicate Below(n: Numeric, k: real) {
    match n
    case NotANumber => false
    case Finite(x) => x < k
    case Infinite(positive) => !positive
  }

  /** `n > k`; NaN compares false. */
  predicate Above(n: Numeric, k: real) {
    match n
    case NotANumber => false
    case Finite(x) => x > k
    case Infinite(positive) => positive
  }

  /** An optionally signed run of decimal digits with white space around it. */
  predicate IsIntegerText(s: string) {
    Unsigned(Trim(s)) != [] && AllDigits(Unsigned(Trim(s)))
  }

  /** The integer an integer text denotes. */
  function IntegerValue(s: string): int
    requires IsIntegerText(s)
  {
    Signed(Negative(Trim(s)), RadixValue(Unsigned(Trim(s)), 10))
  }

  /** Reading back the decimal text of a number gives the number. */
  lemma {:induction false} DecimalRoundTrip(n: nat)
    ensures RadixValue(Decimal(n), 10) == n
  {
    if n >= 10 {
      var s := Decimal(n);
      assert s[..|s| - 1] == Decimal(n / 10);
      DecimalRoundTrip(n / 10);
    }
  }

  /** The digit run at the front of `u + w` is `u` when `w` starts with
      something else. */
  lemma {:induction false} DigitPrefixOfDigits(u: string, w: string, radix: nat)
    requires AllDigitsIn(u, radix)
    requires w == [] || !IsDigitIn(w[0], radix)
    ensures DigitPrefix(u + w, radix) == |u|
  {
    if u != [] {
      assert (u + w)[1..] == u[1..] + w;
      DigitPrefixOfDigits(u[1..], w, radix);
    }
  }

  /** The leading value of `u + w` is the value of `u`. */
  lemma LeadingValueOfDigits(u: string, w: string, radix: nat)
    requires u != [] && AllDigitsIn(u, radix)
    requires w == [] || !IsDigitIn(w[0], radix)
    ensures LeadingValue(u + w, radix) == Some(RadixValue(u, radix))
  {
    DigitPrefixOfDigits(u, w, radix);
    assert (u + w)[..|u|] == u;
  }

  /** `parseInt(n)` is `n` for every integer `n`: String and parseInt are inverse. */
  lemma ParseIntOfNumber(n: int)
    ensures ParseInt(Num(n)) == Int(n)
  {
    var m: nat := if n < 0 then -n else n;
    var d := Decimal(m);
    assert !HasHexPrefix(d) by {
      if d[0] == '0' {
        assert m == 0 && d == "0";
      }
    }
    DecimalRoundTrip(m);
    ParseIntOfDigits(NumberText(n), d);
  }

  /** `parseInt` of a minus sign or nothing, then decimal digits with no
      hexadecimal prefix, is their signed value. */
  lemma ParseIntOfDigits(t: string, d: string)
    requires d != [] && AllDigits(d) && !HasHexPrefix(d)
    requires t == d || t == "-" + d
    ensures ParseIntText(t) == Int(Signed(Negative(t), RadixValue(d, 10)))
  {
    assert d + [] == d;
    if t == d {
      ParseIntReadsPrefix(d, []);
    } else {
      assert t[0] == '-' && t[1..] == d;
      assert TrimStart(t) == t;
      LeadingValueOfDigits(d, [], 10);
    }
  }

  /** `parseInt` reads the decimal digits at the front of a text and ignores
      what follows them. */
  lemma ParseIntReadsPrefix(d: string, rest: string)
    requires d != [] && AllDigits(d)
    requires rest == [] || !IsDigit(rest[0])
    requires !HasHexPrefix(d + rest)
    ensures ParseIntText(d + rest) == Int(RadixValue(d, 10))
  {
    assert !IsSpace((d + rest)[0]) && !Negative(d + rest);
    assert TrimStart(d + rest) == d + rest;
    assert Unsigned(d + rest) == d + rest;
    LeadingValueOfDigits(d, rest, 10);
  }

  /** On an optionally signed run of decimal digits with white space around
      it, `parseInt` and `Number` read the same integer. */
  lemma ParseIntAgreesWithNumber(s: string)
    requires IsIntegerText(s)
    ensures ParseIntText(s) == Int(IntegerValue(s))
    ensures TextToNumber(s) == Finite(IntegerValue(s) as real)
  {
    ParseIntOfIntegerText(s);
    NumberOfIntegerText(s);
  }

  /** `parseInt` of an integer text: the trailing white space stops the digits. */
  lemma ParseIntOfIntegerText(s: string)
    requires IsIntegerText(s)
    ensures ParseIntText(s) == Int(IntegerValue(s))
  {
    var w := TrailingSpace(s);
    LeadingValueOfDigits(Unsigned(Trim(s)), w, 10);
  }

  /** After its leading white space, an integer text is its trimmed text
      followed by white space `w`. */
  lemma TrailingSpace(s: string) returns (w: string)
    requires IsIntegerText(s)
    ensures w == [] || !IsDigit(w[0])
    ensures Negative(TrimStart(s)) == Negative(Trim(s))
    ensures Unsigned(TrimStart(s)) == Unsigned(Trim(s)) + w
    ensures !HasHexPrefix(Unsigned(Trim(s)) + w)
  {
    w := SplitTrailingSpace(TrimStart(s));
    SignOfAppend(Trim(s), w);
    NoHexPrefixBeforeSpace(Unsigned(Trim(s)), w);
  }

  /** A text is its part without trailing white space, then white space. */
  lemma SplitTrailingSpace(t: string) returns (w: string)
    ensures t == TrimEnd(t) + w
    ensures w == [] || IsSpace(w[0])
  {
    w := t[|TrimEnd(t)|..];
  }

  /** Text after a non-empty numeric text leaves its sign alone. */
  lemma SignOfAppend(t: string, w: string)
    requires t != []
    ensures Negative(t + w) == Negative(t)
    ensures Unsigned(t + w) == Unsigned(t) + w
  {
  }

  /** Decimal digits followed by white space carry no `0x` prefix. */
  lemma NoHexPrefixBeforeSpace(u: string, w: string)
    requires u != [] && AllDigits(u)
    requires w == [] || IsSpace(w[0])
    ensures !HasHexPrefix(u + w)
  {
  }

  /** `Number` of an integer text: no radix prefix, no point, no exponent. */
  lemma NumberOfIntegerText(s: string)
    requires IsIntegerText(s)
    ensures TextToNumber(s) == Finite(IntegerValue(s) as real)
  {
    var t := Trim(s);
    var u := Unsigned(t);
    assert t != "";
    assert !(|t| >= 2 && t[0] == '0' && PrefixRadix(t[1]) > 0) by {
      if |t| >= 2 && t[0] == '0' {
        assert u == t && IsDigit(t[1]);
      }
    }
    assert u != "Infinity" by {
      assert IsDigit(u[0]);
    }
    DecimalLiteralOfDigits(u);
  }

  /** A plain run of decimal digits is a decimal literal denoting its value. */
  lemma DecimalLiteralOfDigits(u: string)
    requires u != [] && AllDigits(u)
    ensures DecimalLiteral(u) == Some(RadixValue(u, 10) as real)
  {
    DigitPrefixOfDigits(u, [], 10);
    assert u + [] == u && u[..|u|] == u;
  }

  /** `parseInt` of undefined, null and the booleans is NaN: their text has no digit. */
  lemma ParseIntOfKeywords(v: Value)
    requires v.Undefined? || v.Null? || v.Bool?
    ensures ParseInt(v) == NaN
  {
    ParseIntOfWord(Text(v));
  }

  /** A Latin letter, either case. */
  predicate IsLetter(c: char) {
    'a' <= c <= 'z' || 'A' <= c <= 'Z'
  }

  /** A text that starts with a letter has no number for `parseInt`. */
  lemma ParseIntOfWord(t: string)
    requires t != [] && IsLetter(t[0])
    ensures ParseIntText(t) == NaN
  {
  }

  /** `parseInt(v) || fallback`. */
  function IntOr(v: Value, fallback: int): (n: int)
    ensures ParseInt(v).Int? && ParseInt(v).i != 0 ==> n == ParseInt(v).i
    ensures ParseInt(v).NaN? || ParseInt(v) == Int(0) ==> n == fallback
  {
    match ParseInt(v)
    case NaN => fallback
    case Int(i) => if i != 0 then i else fallback
  }

  /** `parseInt(n) || fallback` is `n` itself, unless it is 0. */
  lemma IntOrOfNumber(n: int, fallback: int)
    ensures IntOr(Num(n), fallback) == if n != 0 then n else fallback
  {
    ParseIntOfNumber(n);
  }

  /** `parseInt(s) || fallback` on a text: an optionally signed run of
      digits is its value unless that is 0; the empty text and a text that
      starts with a letter fall back to the default. */
  lemma IntOrOfText(s: string, fallback: int)
    ensures IsIntegerText(s) ==> IntOr(Str(s), fallback) == if IntegerValue(s) != 0 then IntegerValue(s) else fallback
    ensures s == "" ==> IntOr(Str(s), fallback) == fallback
    ensures s != [] && IsLetter(s[0]) ==> IntOr(Str(s), fallback) == fallback
  {
    if IsIntegerText(s) {
      ParseIntAgreesWithNumber(s);
    }
    if s != [] && IsLetter(s[0]) {
      ParseIntOfWord(s);
    }
  }

  /** A missing value falls back to the default. */
  lemma IntOrOfMissing(fallback: int)
    ensures IntOr(Undefined, fallback) == fallback
  {
  }

  /** A text with no white space at either end is its own trimmed text. */
  lemma TrimOfPlainText(t: string)
    requires t != [] && !IsSpace(t[0]) && !IsSpace(t[|t| - 1])
    ensures Trim(t) == t
  {
  }

  /** `Number` of an unsigned text that is no radix literal and not
      `Infinity` is the value of its decimal literal, or NaN. */
  lemma NumberOfDecimalText(t: string)
    requires t != [] && !IsSpace(t[0]) && !IsSpace(t[|t| - 1])
    requires t[0] != '0' || |t| < 2 || PrefixRadix(t[1]) == 0
    requires t[0] != '-' && t[0] != '+' && t != "Infinity"
    ensures TextToNumber(t) == if DecimalLiteral(t).Some? then Finite(DecimalLiteral(t).value) else NotANumber
  {
  }

  /** A decimal literal with a point: digits `m`, the point, digits `f`,
      and then `x`, which starts with no digit. */
  lemma DecimalLiteralWithPoint(m: string, f: string, x: string)
    requires AllDigits(m) && AllDigits(f)
    requires x == [] || !IsDigit(x[0])
    ensures DecimalLiteral(m + "." + f + x) == ScaledDigits(m + f, |f|, x)
  {
    var u := m + "." + f + x;
    DigitPrefixOfDigits(m, "." + f + x, 10);
    assert u == m + ("." + f + x);
    assert u[..|m|] == m && u[|m| + 1..] == f + x;
    DigitPrefixOfDigits(f, x, 10);
    assert (f + x)[..|f|] == f && (f + x)[|f|..] == x;
  }

  /** A decimal literal without a point: digits `m`, then `x`, which starts
      with neither a digit nor a point. */
  lemma DecimalLiteralWithoutPoint(m: string, x: string)
    requires AllDigits(m)
    requires x == [] || (!IsDigit(x[0]) && x[0] != '.')
    ensures DecimalLiteral(m + x) == ScaledDigits(m, 0, x)
  {
    DigitPrefixOfDigits(m, x, 10);
    assert (m + x)[..|m|] == m && (m + x)[|m|..] == x;
  }

  /** `e` and digits is that power of ten. */
  lemma ExponentOfDigits(d: string)
    requires d != [] && AllDigits(d)
    ensures ExponentPart("e" + d) == Some(RadixValue(d, 10))
  {
  }

  /** The two coercions on a fraction: `Number` keeps it, `parseInt` stops at the point. */
  lemma CoercionsOfFraction()
    ensures TextToNumber("4.5") == Finite(4.5)
    ensures ParseIntText("4.5") == Int(4)
  {
    NumberOfDecimalText("4.5");
    FractionLiteral();
    assert "4.5" == "4" + ".5";
    assert !IsDigit('.') && !HasHexPrefix("4.5");
    ParseIntReadsPrefix("4", ".5");
  }

  /** The decimal literal `4.5`. */
  lemma FractionLiteral()
    ensures DecimalLiteral("4.5") == Some(4.5)
  {
    FractionDigits();
    assert RadixValue("45", 10) == 45 by {
      assert "45"[..1] == "4" && "4"[..0] == "";
    }
    assert 45.0 * Scale(-1) == 4.5;
  }

  /** `4.5` is the digits `45`, one of them after the point, and no exponent. */
  lemma FractionDigits()
    ensures DecimalLiteral("4.5") == ScaledDigits("45", 1, "")
  {
    assert "4.5" == "4" + "." + "5" + "";
    DecimalLiteralWithPoint("4", "5", "");
    assert "4" + "5" == "45";
  }

  /** The two coercions on an exponent: `Number` applies it, `parseInt` stops at the `e`. */
  lemma CoercionsOfExponent()
    ensures TextToNumber("1e3") == Finite(1000.0)
    ensures ParseIntText("1e3") == Int(1)
  {
    NumberOfDecimalText("1e3");
    assert "1e3" == "1" + "e3";
    DecimalLiteralWithoutPoint("1", "e3");
    assert "e3" == "e" + "3";
    ExponentOfDigits("3");
    assert RadixValue("3", 10) == 3 by { assert "3"[..0] == ""; }
    assert RadixValue("1", 10) == 1 by { assert "1"[..0] == ""; }
    assert Scale(3) == 1000.0;
    assert !IsDigit('e') && !HasHexPrefix("1e3");
    ParseIntReadsPrefix("1", "e3");
  }

  /** The two coercions on a binary literal: `Number` reads it, `parseInt`
      reads the leading 0 and stops at the `b`. */
  lemma CoercionsOfBinary()
    ensures TextToNumber("0b101") == Finite(5.0)
    ensures ParseIntText("0b101") == Int(0)
  {
    TrimOfPlainText("0b101");
    assert "0b101"[2..] == "101";
    assert RadixValue("101", 2) == 5 by {
      assert "101"[..2] == "10" && "10"[..1] == "1" && "1"[..0] == "";
    }
    assert "0b101" == "0" + "b101";
    assert !IsDigit('b') && !HasHexPrefix("0b101");
    ParseIntReadsPrefix("0", "b101");
    assert RadixValue("0", 10) == 0 by { assert "0"[..0] == ""; }
  }

  /** The two coercions on a hexadecimal literal agree. */
  lemma CoercionsOfHex()
    ensures TextToNumber("0x1A") == Finite(26.0)
    ensures ParseIntText("0x1A") == Int(26)
  {
    TrimOfPlainText("0x1A");
    assert "0x1A"[2..] == "1A";
    assert "1A"[..2] == "1A" && "1A"[..1] == "1" && "1"[..0] == "";
    assert TrimStart("0x1A") == "0x1A" && Unsigned("0x1A") == "0x1A" && HasHexPrefix("0x1A");
    assert DigitPrefix("1A", 16) == 2;
  }

  /** The two coercions on a number with a unit: `Number` refuses it, `parseInt` reads the number. */
  lemma CoercionsOfUnit()
    ensures TextToNumber("12px") == NotANumber
    ensures ParseIntText("12px") == Int(12)
  {
    NumberOfDecimalText("12px");
    assert "12px" == "12" + "px";
    DecimalLiteralWithoutPoint("12", "px");
    assert !HasHexPrefix("12px");
    ParseIntReadsPrefix("12", "px");
    assert "12"[..1] == "1";
  }

  /** The two coercions on an integer with white space around it agree. */
  lemma CoercionsOfPaddedInteger()
    ensures TextToNumber(" 4 ") == Finite(4.0)
    ensures ParseIntText(" 4 ") == Int(4)
  {
    assert TrimStart(" 4 ") == "4 ";
    assert TrimEnd("4 ") == "4";
    ParseIntAgreesWithNumber(" 4 ");
    assert RadixValue("4", 10) == 4 by { assert "4"[..0] == ""; }
  }

  // ---------------------------------------------------------------------
  // Dates.
  // ---------------------------------------------------------------------

  /** A JavaScript Date: a millisecond time value, or the invalid date. */
  datatype Instant = Time(ms: int) | InvalidDate

  /** The largest magnitude a Date's time value may have. */
  const MaxTimeValue: int := 8_640_000_000_000_000

  function TimeClip(t: int): (d: Instant)
    ensures d.Time? <==> -MaxTimeValue <= t <= MaxTimeValue
    ensures d.Time? ==> d.ms == t
  {
    if -MaxTimeValue <= t <= MaxTimeValue then Time(t) else InvalidDate
  }

  /** `new Date(v)`. Parsing a date string belongs to the runtime and is the
      parameter `parseDate`; other values are converted to a number first. */
  function NewDate(v: Value, parseDate: string -> Instant): Instant {
    match v
    case Undefined => InvalidDate
    case Null => Time(0)
    case Bool(b) => Time(if b then 1 else 0)
    case Num(n) => TimeClip(n)
    case Str(s) => parseDate(s)
  }

  /** `a >= b` on two Dates: false whenever either is invalid (NaN compares false). */
  predicate DateGe(a: Instant, b: Instant) {
    a.Time? && b.Time? && a.ms >= b.ms
  }

  /** `a <= b` on two Dates. */
  predicate DateLe(a: Instant, b: Instant) {
    a.Time? && b.Time? && a.ms <= b.ms
  }

  // ---------------------------------------------------------------------
  // Strings.
  // ---------------------------------------------------------------------

  /** `e.split("@")[0]`: the part of `e` before its first '@', or all of `e`. */
  function LocalPart(e: string): (p: string)
    ensures p <= e
    ensures '@' !in p
    ensures |p| < |e| ==> e[|p|] == '@'
  {
    if e == [] || e[0] == '@' then [] else [e[0]] + LocalPart(e[1..])
  }
}

=== FILE: materials.dfy ===
/**
 * Session materials: upload and own-list for tutors, the paginated listing
 * and deletion for admins.
 *
 * The admin listing is sorted newest first. Ids are handed out in insertion
 * order, so newest first is descending id order.
 */
module Materials {
  import opened Common
  import opened Js
  import opened Store
  import opened Http
  import opened Auth

  datatype MaterialBody = MaterialBody(
    title: Value,
    sessionTitle: Value,
    sessionId: Value,
    tutorEmail: Value,
    imageUrl: Value,
    driveLink: Value)

  /** `POST /api/tutor-materials` (tutor): title, session id, session title and
      tutor email are required (400); image and drive link default to "". */
  function CreateMaterial(cred: Credential, body: MaterialBody, db: Db): (r: Reply)
    ensures Admit(cred, Tutor, db.users).Refused? ==> r == Refuse(Admit(cred, Tutor, db.users).code, db)
    ensures r.code == Created <==>
      && Admit(cred, Tutor, db.users).Admitted?
      && Truthy(body.title) && Truthy(body.sessionId) && Truthy(body.sessionTitle) && Truthy(body.tutorEmail)
    ensures Admit(cred, Tutor, db.users).Admitted? ==>
      (r.code == BadRequest <==>
        !Truthy(body.title) || !Truthy(body.sessionId) || !Truthy(body.sessionTitle) || !Truthy(body.tutorEmail))
    ensures r.code == Created ==>
      && r.detail == NewId(db.nextId)
      && db.nextId in r.db.materials
      && r.db == db.(materials := db.materials[db.nextId := r.db.materials[db.nextId]], nextId := db.nextId + 1)
      && r.db.materials[db.nextId] == Material(body.title, body.sessionId, body.sessionTitle, body.tutorEmail,
           r.db.materials[db.nextId].imageUrl, r.db.materials[db.nextId].driveLink)
      && r.db.materials[db.nextId].imageUrl == (if Truthy(body.imageUrl) then body.imageUrl else Str(""))
      && r.db.materials[db.nextId].driveLink == (if Truthy(body.driveLink) then body.driveLink else Str(""))
    ensures r.code != Created ==> r.db == db
    ensures WellFormed(db) ==> WellFormed(r.db)
  {
    match Admit(cred, Tutor, db.users)
    case Refused(c) => Refuse(c, db)
    case Admitted(_) =>
      if !Truthy(body.title) || !Truthy(body.sessionId) || !Truthy(body.sessionTitle) || !Truthy(body.tutorEmail) then
        Refuse(BadRequest, db)
      else
        var m := Material(body.title, body.sessionId, body.sessionTitle, body.tutorEmail,
                          Or(body.imageUrl, Str("")), Or(body.driveLink, Str("")));
        Reply(Created, NewId(db.nextId), db.(materials := db.materials[db.nextId := m], nextId := db.nextId + 1))
  }

  /** `GET /api/tutor-materials` (tutor): the materials whose tutor email is the
      verified caller's, not a query value. */
  function ListTutorMaterials(cred: Credential, db: Db): (r: Answer<map<Id, Material>>)
    ensures Admit(cred, Tutor, db.users).Refused? ==> r == Answer(Admit(cred, Tutor, db.users).code, None)
    ensures r.code == Ok <==> Admit(cred, Tutor, db.users).Admitted?
    ensures r.code == Ok ==>
      && cred.Token? && r.value.Some?
      && (forall k :: k in r.value.value <==> k in db.materials && db.materials[k].tutorEmail == Str(cred.email))
      && (forall k :: k in r.value.value ==> r.value.value[k] == db.materials[k])
    ensures r.code != Ok ==> r.value.None?
  {
    match Admit(cred, Tutor, db.users)
    case Refused(c) => Answer(c, None)
    case Admitted(e) => Answer(Ok, Some(map k | k in db.materials && db.materials[k].tutorEmail == Str(e) :: db.materials[k]))
  }

  /** An uploaded material shows in the uploader's own list exactly when the
      body named the uploader's own email. */
  lemma UploadVisibleToUploader(cred: Credential, body: MaterialBody, db: Db)
    requires WellFormed(db)
    requires CreateMaterial(cred, body, db).code == Created
    ensures var db1 := CreateMaterial(cred, body, db).db;
      var listed := ListTutorMaterials(cred, db1);
      listed.code == Ok && (db.nextId in listed.value.value <==> body.tutorEmail == Str(cred.email))
  {
  }

  /** The ids of `m` below `n`, newest (largest) first. */
  function NewestKeys<T>(m: map<Id, T>, n: nat): (ks: seq<Id>)
    ensures forall k :: k in ks <==> k in m && k < n
    ensures forall i :: 0 <= i < |ks| ==> ks[i] < n
    ensures forall i, j :: 0 <= i < j < |ks| ==> ks[i] > ks[j]
    decreases n
  {
    if n == 0 then []
    else (if n - 1 in m then [n - 1] else []) + NewestKeys(m, n - 1)
  }

  /** The materials in listing order: `find().sort({ createdAt: -1 })`. */
  function NewestFirst(db: Db): (listing: seq<Material>)
    ensures |listing| == |NewestKeys(db.materials, db.nextId)|
    ensures forall i :: 0 <= i < |listing| ==>
      NewestKeys(db.materials, db.nextId)[i] in db.materials &&
      listing[i] == db.materials[NewestKeys(db.materials, db.nextId)[i]]
  {
    var ks := NewestKeys(db.materials, db.nextId);
    seq(|ks|, i requires 0 <= i < |ks| => db.materials[ks[i]])
  }

  /** The ids a listing holds. */
  function IdSet(ids: seq<Id>): set<Id> {
    set k | k in ids
  }

  /** A strictly descending run of ids holds as many distinct ids as entries. */
  lemma {:induction false} DescendingIdsDistinct(ids: seq<Id>)
    requires forall i, j :: 0 <= i < j < |ids| ==> ids[i] > ids[j]
    ensures |IdSet(ids)| == |ids|
  {
    if ids != [] {
      var tail := ids[1..];
      assert forall i, j :: 0 <= i < j < |tail| ==> tail[i] == ids[i + 1] && tail[j] == ids[j + 1];
      DescendingIdsDistinct(tail);
      assert forall j :: 0 <= j < |tail| ==> tail[j] == ids[j + 1] < ids[0];
      assert ids[0] !in IdSet(tail);
      assert IdSet(ids) == IdSet(tail) + {ids[0]};
    }
  }

  /** The newest-first listing has exactly one entry per stored material. */
  lemma NewestFirstCountsEveryMaterial(db: Db)
    requires WellFormed(db)
    ensures |NewestFirst(db)| == |db.materials|
  {
    var ks := NewestKeys(db.materials, db.nextId);
    DescendingIdsDistinct(ks);
    assert IdSet(ks) == db.materials.Keys;
  }

  datatype MaterialsPage = MaterialsPage(total: nat, materials: seq<Material>)

  /** `skip(skip).limit(size)` over a listing. */
  function PageSlice<T>(listing: seq<T>, skip: nat, size: nat): (page: seq<T>)
    ensures |page| <= size
    ensures skip <= |listing| ==> page <= listing[skip..] && |page| == Min(size, |listing| - skip)
    ensures skip >= |listing| ==> page == []
  {
    var start := Min(skip, |listing|);
    listing[start..Min(start + size, |listing|)]
  }

  /** The number of items before page `page` of size `limit`. */
  function Skip(page: int, limit: int): (skip: int)
    ensures page >= 1 && limit >= 0 ==> skip >= 0
  {
    (page - 1) * limit
  }

  function Min(a: int, b: int): int {
    if a <= b then a else b
  }

  /**
   * `GET /api/materials/all` (admin): page defaults to 1 and limit to 10,
   * `skip((page - 1) * limit).limit(limit)` over the newest-first listing,
   * with the total count of materials. A negative skip makes the query fail
   * (500); a negative limit returns at most its magnitude.
   */
  function ListMaterialsPage(cred: Credential, page: Value, limit: Value, db: Db): (r: Answer<MaterialsPage>)
    ensures Admit(cred, Admin, db.users).Refused? ==> r == Answer(Admit(cred, Admin, db.users).code, None)
    ensures r.code == Ok <==>
      Admit(cred, Admin, db.users).Admitted? && Skip(IntOr(page, 1), IntOr(limit, 10)) >= 0
    ensures Admit(cred, Admin, db.users).Admitted? && Skip(IntOr(page, 1), IntOr(limit, 10)) < 0 ==>
      r == Answer(ServerError, None)
    ensures r.code == Ok ==>
      var skip := Skip(IntOr(page, 1), IntOr(limit, 10));
      var size := if IntOr(limit, 10) < 0 then -IntOr(limit, 10) else IntOr(limit, 10);
      var listing := NewestFirst(db);
      && r.value.Some?
      && r.value.value.total == |db.materials|
      && |r.value.value.materials| <= size
      && (skip <= |listing| ==> r.value.value.materials <= listing[skip..])
      && (skip <= |listing| ==> |r.value.value.materials| == Min(size, |listing| - skip))
      && (skip + size <= |listing| ==> |r.value.value.materials| == size)
      && (skip >= |listing| ==> r.value.value.materials == [])
    ensures r.code != Ok ==> r.value.None?
  {
    match Admit(cred, Admin, db.users)
    case Refused(c) => Answer(c, None)
    case Admitted(_) =>
      var p := IntOr(page, 1);
      var l := IntOr(limit, 10);
      var skip := Skip(p, l);
      if skip < 0 then Answer(ServerError, None)
      else
        var size := if l < 0 then -l else l;
        Answer(Ok, Some(MaterialsPage(|db.materials|, PageSlice(NewestFirst(db), skip, size))))
  }

  /** Without page and limit the admin sees the ten newest materials (or all, if fewer). */
  lemma DefaultPageIsTenNewest(cred: Credential, db: Db)
    requires Admit(cred, Admin, db.users).Admitted?
    ensures var r := ListMaterialsPage(cred, Undefined, Undefined, db);
      r.code == Ok && r.value.value.materials == NewestFirst(db)[..Min(10, |NewestFirst(db)|)]
  {
    IntOrOfMissing(1);
    IntOrOfMissing(10);
  }

  /** Every stored material appears in the listing the pages are cut from. */
  lemma ListingIsComplete(db: Db)
    requires WellFormed(db)
    ensures forall k :: k in db.materials ==> db.materials[k] in NewestFirst(db)
  {
  }

  /** `DELETE /api/materials/:id` (admin): 400 for a malformed id, 404 for an
      unknown one, otherwise the material is removed. */
  function DeleteMaterial(cred: Credential, id: string, parse: IdParser, db: Db): (r: Reply)
    ensures Admit(cred, Admin, db.users).Refused? ==> r == Refuse(Admit(cred, Admin, db.users).code, db)
    ensures Admit(cred, Admin, db.users).Admitted? ==> (r.code == BadRequest <==> parse(id).None?)
    ensures Admit(cred, Admin, db.users).Admitted? ==>
      (r.code == NotFound <==> parse(id).Some? && parse(id).value !in db.materials)
    ensures r.code == Ok <==> Admit(cred, Admin, db.users).Admitted? && parse(id).Some? && parse(id).value in db.materials
    ensures r.code == Ok ==>
      && r.db == db.(materials := r.db.materials)
      && r.db.materials.Keys == db.materials.Keys - {parse(id).value}
      && forall k :: k in r.db.materials ==> r.db.materials[k] == db.materials[k]
    ensures r.code != Ok ==> r.db == db
    ensures WellFormed(db) ==> WellFormed(r.db)
  {
    match Admit(cred, Admin, db.users)
    case Refused(c) => Refuse(c, db)
    case Admitted(_) =>
      match parse(id)
      case None => Refuse(BadRequest, db)
      case Some(k) =>
        if k !in db.materials then Refuse(NotFound, db)
        else Reply(Ok, NoDetail, db.(materials := db.materials - {k}))
  }

  /** Deleting the same material twice: the second attempt is 404. */
  lemma DeleteTwiceIsNotFound(cred: Credential, id: string, parse: IdParser, db: Db)
    requires DeleteMaterial(cred, id, parse, db).code == Ok
    ensures var db1 := DeleteMaterial(cred, id, parse, db).db;
      DeleteMaterial(cred, id, parse, db1) == Refuse(NotFound, db1)
  {
  }
}

=== FILE: notes.dfy ===
/**
 * Student notes: create, list, update and delete, each behind the student
 * gate. The owner is the `email` field the body or query names; update and
 * delete address a note by id alone, so any student may change or remove
 * any note.
 */
module Notes {
  import opened Common
  import opened Js
  import opened Store
  import opened Http
  import opened Auth

  /** `POST /api/student-notes`: email, title and description are required (400). */
  function CreateNote(cred: Credential, email: Value, title: Value, description: Value, db: Db): (r: Reply)
    ensures Admit(cred, Student, db.users).Refused? ==> r == Refuse(Admit(cred, Student, db.users).code, db)
    ensures r.code == Created <==>
      Admit(cred, Student, db.users).Admitted? && Truthy(email) && Truthy(title) && Truthy(description)
    ensures Admit(cred, Student, db.users).Admitted? ==>
      (r.code == BadRequest <==> !Truthy(email) || !Truthy(title) || !Truthy(description))
    ensures r.code == Created ==>
      && r.detail == NewId(db.nextId)
      && r.db == db.(notes := db.notes[db.nextId := Note(email, title, description)], nextId := db.nextId + 1)
    ensures r.code != Created ==> r.db == db
    ensures WellFormed(db) ==> WellFormed(r.db)
  {
    match Admit(cred, Student, db.users)
    case Refused(c) => Refuse(c, db)
    case Admitted(_) =>
      if !Truthy(email) || !Truthy(title) || !Truthy(description) then Refuse(BadRequest, db)
      else
        Reply(Created, NewId(db.nextId),
          db.(notes := db.notes[db.nextId := Note(email, title, description)], nextId := db.nextId + 1))
  }

  /** `GET /api/student-notes?email=`: the notes whose owner field equals the
      query value, which need not be the caller's email. */
  function ListNotes(cred: Credential, email: Value, db: Db): (r: Answer<map<Id, Note>>)
    ensures Admit(cred, Student, db.users).Refused? ==> r == Answer(Admit(cred, Student, db.users).code, None)
    ensures r.code == Ok <==> Admit(cred, Student, db.users).Admitted? && Truthy(email)
    ensures Admit(cred, Student, db.users).Admitted? && !Truthy(email) ==> r == Answer(BadRequest, None)
    ensures r.code == Ok ==>
      && r.value.Some?
      && (forall k :: k in r.value.value <==> k in db.notes && db.notes[k].email == email)
      && (forall k :: k in r.value.value ==> r.value.value[k] == db.notes[k])
    ensures r.code != Ok ==> r.value.None?
  {
    match Admit(cred, Student, db.users)
    case Refused(c) => Answer(c, None)
    case Admitted(_) =>
      if !Truthy(email) then Answer(BadRequest, None)
      else Answer(Ok, Some(map k | k in db.notes && db.notes[k].email == email :: db.notes[k]))
  }

  /** `PATCH /api/student-notes/:id`: title and description are required
      (400); a malformed id throws (500); an unknown id is 404; otherwise the
      note's title and description are replaced and its owner is kept. */
  function UpdateNote(cred: Credential, id: string, title: Value, description: Value, parse: IdParser, db: Db): (r: Reply)
    ensures Admit(cred, Student, db.users).Refused? ==> r == Refuse(Admit(cred, Student, db.users).code, db)
    ensures r.code == Ok <==>
      && Admit(cred, Student, db.users).Admitted? && Truthy(title) && Truthy(description)
      && parse(id).Some? && parse(id).value in db.notes
    ensures Admit(cred, Student, db.users).Admitted? && (!Truthy(title) || !Truthy(description)) ==>
      r == Refuse(BadRequest, db)
    ensures Admit(cred, Student, db.users).Admitted? && Truthy(title) && Truthy(description) && parse(id).Some? ==>
      (r.code == NotFound <==> parse(id).value !in db.notes)
    ensures Admit(cred, Student, db.users).Admitted? && Truthy(title) && Truthy(description) ==>
      (r.code == ServerError <==> parse(id).None?)
    ensures r.code == Ok ==>
      var k := parse(id).value;
      && k in r.db.notes
      && r.db == db.(notes := db.notes[k := r.db.notes[k]])
      && r.db.notes[k].email == db.notes[k].email
      && r.db.notes[k].title == title && r.db.notes[k].description == description
    ensures r.code != Ok ==> r.db == db
    ensures WellFormed(db) ==> WellFormed(r.db)
  {
    match Admit(cred, Student, db.users)
    case Refused(c) => Refuse(c, db)
    case Admitted(_) =>
      if !Truthy(title) || !Truthy(description) then Refuse(BadRequest, db)
      else
        match parse(id)
        case None => Refuse(ServerError, db)
        case Some(k) =>
          if k !in db.notes then Refuse(NotFound, db)
          else Reply(Ok, NoDetail, db.(notes := db.notes[k := db.notes[k].(title := title, description := description)]))
  }

  /** `DELETE /api/student-notes/:id`: a malformed id throws (500); an unknown
      id is 404; otherwise the note is removed. */
  function DeleteNote(cred: Credential, id: string, parse: IdParser, db: Db): (r: Reply)
    ensures Admit(cred, Student, db.users).Refused? ==> r == Refuse(Admit(cred, Student, db.users).code, db)
    ensures r.code == Ok <==> Admit(cred, Student, db.users).Admitted? && parse(id).Some? && parse(id).value in db.notes
    ensures Admit(cred, Student, db.users).Admitted? ==>
      && (r.code == ServerError <==> parse(id).None?)
      && (r.code == NotFound <==> parse(id).Some? && parse(id).value !in db.notes)
    ensures r.code == Ok ==>
      && r.db == db.(notes := r.db.notes)
      && r.db.notes.Keys == db.notes.Keys - {parse(id).value}
      && forall k :: k in r.db.notes ==> r.db.notes[k] == db.notes[k]
    ensures r.code != Ok ==> r.db == db
    ensures WellFormed(db) ==> WellFormed(r.db)
  {
    match Admit(cred, Student, db.users)
    case Refused(c) => Refuse(c, db)
    case Admitted(_) =>
      match parse(id)
      case None => Refuse(ServerError, db)
      case Some(k) =>
        if k !in db.notes then Refuse(NotFound, db)
        else Reply(Ok, NoDetail, db.(notes := db.notes - {k}))
  }

  /** Deleting is not scoped to the owner: any two admitted students get the
      same answer, whoever wrote the note. */
  lemma DeleteIgnoresOwner(a: Credential, b: Credential, id: string, parse: IdParser, db: Db)
    requires Admit(a, Student, db.users).Admitted? && Admit(b, Student, db.users).Admitted?
    ensures DeleteNote(a, id, parse, db) == DeleteNote(b, id, parse, db)
  {
  }

  /** A note created and then deleted leaves the notes as they were, and a
      second delete of the same id is 404. */
  lemma CreateThenDelete(cred: Credential, email: Value, title: Value, description: Value,
                         id: string, parse: IdParser, db: Db)
    requires WellFormed(db)
    requires CreateNote(cred, email, title, description, db).code == Created
    requires parse(id) == Some(db.nextId)
    ensures var db1 := CreateNote(cred, email, title, description, db).db;
      var del := DeleteNote(cred, id, parse, db1);
      && del.code == Ok
      && del.db.notes == db.notes
      && DeleteNote(cred, id, parse, del.db).code == NotFound
  {
  }

  /** A created note is listed under its owner's email. */
  lemma CreatedNoteIsListed(cred: Credential, email: Value, title: Value, description: Value, db: Db)
    requires CreateNote(cred, email, title, description, db).code == Created
    ensures var db1 := CreateNote(cred, email, title, description, db).db;
      var listed := ListNotes(cred, email, db1);
      listed.code == Ok && db.nextId in listed.value.value
  {
  }
}

=== FILE: reviews.dfy ===
/**
 * Reviews: `POST /api/reviews` (student) and `GET /api/reviews/:sessionId`
 * (public).
 *
 * A review is admitted when the session id text is a valid id, the rating
 * coerces to a number from 1 to 5, the session exists and is approved, and
 * the student has not reviewed the same id text before. The review is
 * inserted, and then the handler calls an average-rating helper that does
 * not exist (its definition is commented out); the call throws, so the
 * client is answered 500 although the review is stored.
 */
module Reviews {
  import opened Common
  import opened Js
  import opened Store
  import opened Http
  import opened Auth

  datatype ReviewBody = ReviewBody(sessionId: Value, studentName: Value, rating: Value, comment: Value)

  /** `ObjectId.isValid(v)` for a body field; only strings are considered. */
  predicate ValidIdField(v: Value, parse: IdParser) {
    v.Str? && parse(v.s).Some?
  }

  /** The negation of `!rating || isNaN(rating) || rating < 1 || rating > 5`:
      each test coerces the rating with `Number`. */
  predicate RatingAccepted(rating: Value) {
    !(!Truthy(rating) || ToNumber(rating).NotANumber? || Below(ToNumber(rating), 1.0) || Above(ToNumber(rating), 5.0))
  }

  /** The rating check accepts exactly the values whose numeric coercion is a
      finite number from 1 to 5, fractions included. */
  lemma RatingAcceptedIffInRange(rating: Value)
    ensures RatingAccepted(rating) <==> ToNumber(rating).Finite? && 1.0 <= ToNumber(rating).x <= 5.0
  {
  }

  /** What the rating check rejects and lets through, on typical values:
      0, 6 and a missing rating are rejected; 4 and true pass. */
  lemma RatingExamples()
    ensures !RatingAccepted(Num(0)) && !RatingAccepted(Num(6)) && !RatingAccepted(Undefined)
    ensures RatingAccepted(Num(4)) && RatingAccepted(Bool(true))
  {
  }

  /** A rating text is coerced as a whole, white space around it aside:
      "12px" is rejected and " 4 " passes. */
  lemma RatingTextExamples()
    ensures !RatingAccepted(Str("12px"))
    ensures RatingAccepted(Str(" 4 "))
  {
    assert !RatingAccepted(Str("12px")) by {
      CoercionsOfUnit();
    }
    assert RatingAccepted(Str(" 4 ")) by {
      CoercionsOfPaddedInteger();
    }
  }

  /** The rating stored for an accepted value is `parseInt(rating)`. A number,
      or an integer text, is stored as the very integer the check accepted;
      the boolean true passes the check and is stored as NaN. */
  lemma StoredRating(rating: Value)
    requires RatingAccepted(rating)
    ensures rating.Num? ==> ParseInt(rating) == Int(rating.n) && 1 <= rating.n <= 5
    ensures rating.Str? && IsIntegerText(rating.s) ==>
      ParseInt(rating) == Int(IntegerValue(rating.s)) && 1 <= IntegerValue(rating.s) <= 5
    ensures rating.Bool? ==> ParseInt(rating) == NaN
  {
    match rating
    case Num(n) => ParseIntOfNumber(n);
    case Str(s) =>
      if IsIntegerText(s) {
        ParseIntAgreesWithNumber(s);
      }
    case Bool(_) => ParseIntOfKeywords(rating);
    case Null =>
    case Undefined =>
  }

  /** A fractional rating passes the check and is stored without its
      fractional part. */
  lemma FractionalRatingTruncated()
    ensures RatingAccepted(Str("4.5")) && ParseInt(Str("4.5")) == Int(4)
  {
    CoercionsOfFraction();
  }

  /** A binary literal whose value is 5 passes the check and is stored as 0,
      outside the range the check enforces. */
  lemma BinaryRatingStoredAsZero()
    ensures RatingAccepted(Str("0b101")) && ParseInt(Str("0b101")) == Int(0)
  {
    CoercionsOfBinary();
  }

  /** `reviewsCollection.findOne({ sessionId, studentEmail })` found something. */
  predicate HasReviewed(reviews: map<Id, Review>, sessionId: string, email: Email) {
    exists k :: k in reviews && reviews[k].sessionId == sessionId && reviews[k].studentEmail == email
  }

  /** The session an admitted review refers to is present and approved. */
  predicate ApprovedSession(parse: IdParser, sessionId: string, db: Db) {
    parse(sessionId).Some? && parse(sessionId).value in db.sessions
      && db.sessions[parse(sessionId).value].status == Approved
  }

  /** The review document inserted for student `email`. */
  function NewReview(body: ReviewBody, email: Email): Review
    requires body.sessionId.Str?
  {
    Review(body.sessionId.s, email, Or(body.studentName, Str(LocalPart(email))),
           ParseInt(body.rating), Or(body.comment, Str("")))
  }

  /** Everything `POST /api/reviews` checks after the student gate, in order. */
  predicate Admissible(email: Email, body: ReviewBody, parse: IdParser, db: Db) {
    && ValidIdField(body.sessionId, parse)
    && RatingAccepted(body.rating)
    && ApprovedSession(parse, body.sessionId.s, db)
    && !HasReviewed(db.reviews, body.sessionId.s, email)
  }

  /** An admitted student posts a review that passes every check: the one
      case in which `POST /api/reviews` stores something. */
  predicate Stores(cred: Credential, body: ReviewBody, parse: IdParser, db: Db) {
    cred.Token? && Admit(cred, Student, db.users).Admitted? && Admissible(cred.email, body, parse, db)
  }

  /** `POST /api/reviews` (student). */
  function PostReview(cred: Credential, body: ReviewBody, parse: IdParser, db: Db): (r: Reply)
    ensures Admit(cred, Student, db.users).Refused? ==> r == Refuse(Admit(cred, Student, db.users).code, db)
    ensures r.db != db <==> Stores(cred, body, parse, db)
    ensures r.db != db ==>
      && r.code == ServerError
      && r.db == db.(reviews := db.reviews[db.nextId := NewReview(body, cred.email)], nextId := db.nextId + 1)
    ensures Admit(cred, Student, db.users).Admitted? ==>
      (!ValidIdField(body.sessionId, parse) || !RatingAccepted(body.rating) ==> r == Refuse(BadRequest, db))
    ensures Admit(cred, Student, db.users).Admitted? && ValidIdField(body.sessionId, parse) && RatingAccepted(body.rating) ==>
      (r.code == NotFound <==> !ApprovedSession(parse, body.sessionId.s, db))
    ensures (cred.Token? && Admit(cred, Student, db.users).Admitted? && ValidIdField(body.sessionId, parse)
             && RatingAccepted(body.rating) && ApprovedSession(parse, body.sessionId.s, db)) ==>
      (r.code == BadRequest <==> HasReviewed(db.reviews, body.sessionId.s, cred.email))
    ensures r.code != Created
    ensures r.db.reviews == db.reviews || r.db.reviews.Keys == db.reviews.Keys + {db.nextId}
    ensures WellFormed(db) ==> WellFormed(r.db)
  {
    match Admit(cred, Student, db.users)
    case Refused(c) => Refuse(c, db)
    case Admitted(e) =>
      if !ValidIdField(body.sessionId, parse) then Refuse(BadRequest, db)
      else if !RatingAccepted(body.rating) then Refuse(BadRequest, db)
      else if !ApprovedSession(parse, body.sessionId.s, db) then Refuse(NotFound, db)
      else if HasReviewed(db.reviews, body.sessionId.s, e) then Refuse(BadRequest, db)
      else
        InsertReviewKeepsWellFormed(db, NewReview(body, e));
        var stored := db.(reviews := db.reviews[db.nextId := NewReview(body, e)], nextId := db.nextId + 1);
        Refuse(ServerError, stored)
  }

  /** The stored review names the verified student and the posted id text,
      never a body email, and falls back to the part of the email before '@'
      when no name is sent. */
  lemma ReviewAuthorIsPrincipal(cred: Credential, body: ReviewBody, parse: IdParser, db: Db)
    requires Stores(cred, body, parse, db)
    ensures cred.Token? && body.sessionId.Str?
    ensures var rv := PostReview(cred, body, parse, db).db.reviews[db.nextId];
      && rv.studentEmail == cred.email
      && rv.sessionId == body.sessionId.s
      && (!Truthy(body.studentName) ==> rv.studentName == Str(LocalPart(cred.email)))
  {
  }

  /** A stored review carries `parseInt` of the posted rating, which is an
      integer from 1 to 5 when the rating was sent as a number or as an
      integer text. */
  lemma StoredReviewRating(cred: Credential, body: ReviewBody, parse: IdParser, db: Db)
    requires Stores(cred, body, parse, db)
    ensures var rv := PostReview(cred, body, parse, db).db.reviews[db.nextId];
      && rv.rating == ParseInt(body.rating)
      && (body.rating.Num? || (body.rating.Str? && IsIntegerText(body.rating.s)) ==>
            rv.rating.Int? && 1 <= rv.rating.i <= 5)
  {
    StoredRating(body.rating);
  }

  /** A second review by the same student for the same session id is refused
      with 400 and inserts nothing. */
  lemma SecondReviewRefused(cred: Credential, body: ReviewBody, body2: ReviewBody, parse: IdParser, db: Db)
    requires Stores(cred, body, parse, db)
    requires body2.sessionId == body.sessionId
    ensures var db' := PostReview(cred, body, parse, db).db;
      PostReview(cred, body2, parse, db') == Refuse(BadRequest, db')
  {
    var db' := PostReview(cred, body, parse, db).db;
    assert db'.users == db.users;
    assert db'.reviews[db.nextId].sessionId == body.sessionId.s;
    assert HasReviewed(db'.reviews, body.sessionId.s, cred.email);
  }

  /** `GET /api/reviews/:sessionId` (public): 400 for a malformed id, 404 for
      an unknown session, otherwise the reviews filed under that id text. */
  function ListReviews(sessionId: string, parse: IdParser, db: Db): (r: Answer<map<Id, Review>>)
    ensures r.code == Ok <==> parse(sessionId).Some? && parse(sessionId).value in db.sessions
    ensures r.code == BadRequest <==> parse(sessionId).None?
    ensures r.code == NotFound <==> parse(sessionId).Some? && parse(sessionId).value !in db.sessions
    ensures r.code == Ok ==>
      && r.value.Some?
      && (forall k :: k in r.value.value <==> k in db.reviews && db.reviews[k].sessionId == sessionId)
      && (forall k :: k in r.value.value ==> r.value.value[k] == db.reviews[k])
    ensures r.code != Ok ==> r.value.None?
  {
    match parse(sessionId)
    case None => Answer(BadRequest, None)
    case Some(id) =>
      if id !in db.sessions then Answer(NotFound, None)
      else Answer(Ok, Some(map k | k in db.reviews && db.reviews[k].sessionId == sessionId :: db.reviews[k]))
  }

  /** A stored review is listed under the id text it was posted with. */
  lemma PostedReviewIsListed(cred: Credential, body: ReviewBody, parse: IdParser, db: Db)
    requires WellFormed(db)
    requires Stores(cred, body, parse, db)
    ensures var db' := PostReview(cred, body, parse, db).db;
      var listed := ListReviews(body.sessionId.s, parse, db');
      listed.code == Ok && db.nextId in listed.value.value
        && listed.value.value[db.nextId].studentEmail == cred.email
  {
  }
}

=== FILE: server.dfy ===
/**
 * The server as a whole: every modelled request that can change the
 * database, dispatched to its handler, and a run of such requests one after another.
 * Read-only routes leave the database as it is and are not listed.
 */
module Server {
  import opened Common
  import opened Js
  import opened Store
  import opened Http
  import opened Auth
  import Users
  import Sessions
  import Reviews
  import Bookings
  import Notes
  import Materials

  /** A mutating request: the route and what it carries, with the caller's credential. */
  datatype Request =
    | RegisterUser(cred: Credential, registration: Users.Registration)
    | UpdateUserRole(cred: Credential, userId: string, role: Value)
    | CreateSession(cred: Credential, body: Sessions.Body)
    | ApproveSession(cred: Credential, sessionId: string, fee: Value)
    | RejectSession(cred: Credential, sessionId: string, reason: Value, feedback: Value)
    | ResubmitSession(cred: Credential, sessionId: string)
    | UpdateSessionByTutor(cred: Credential, sessionId: string, edit: Sessions.SessionEdit)
    | UpdateSessionByAdmin(cred: Credential, sessionId: string, edit: Sessions.SessionEdit)
    | PostReview(cred: Credential, review: Reviews.ReviewBody)
    | CreateBooking(cred: Credential, booking: Bookings.BookingBody)
    | CreateNote(cred: Credential, email: Value, title: Value, description: Value)
    | UpdateNote(cred: Credential, noteId: string, title: Value, description: Value)
    | DeleteNote(cred: Credential, noteId: string)
    | CreateMaterial(cred: Credential, material: Materials.MaterialBody)
    | DeleteMaterial(cred: Credential, materialId: string)

  /** The reply of the handler a request is routed to. */
  function Handle(req: Request, parse: IdParser, parseDate: string -> Instant, db: Db): Reply {
    match req
    case RegisterUser(c, body) => Users.RegisterUser(c, body, db)
    case UpdateUserRole(c, userId, role) => Users.UpdateUserRole(c, userId, role, parse, db)
    case CreateSession(c, body) => Sessions.CreateSession(c, body, parseDate, db)
    case ApproveSession(c, id, fee) => Sessions.ApproveSession(c, id, fee, parse, db)
    case RejectSession(c, id, reason, feedback) => Sessions.RejectSession(c, id, reason, feedback, parse, db)
    case ResubmitSession(c, id) => Sessions.ResubmitSession(c, id, parse, db)
    case UpdateSessionByTutor(c, id, edit) => Sessions.UpdateSessionByTutor(c, id, edit, parse, db)
    case UpdateSessionByAdmin(c, id, edit) => Sessions.UpdateSessionByAdmin(c, id, edit, parse, db)
    case PostReview(c, body) => Reviews.PostReview(c, body, parse, db)
    case CreateBooking(c, body) => Bookings.CreateBooking(c, body, parse, parseDate, db)
    case CreateNote(c, email, title, description) => Notes.CreateNote(c, email, title, description, db)
    case UpdateNote(c, id, title, description) => Notes.UpdateNote(c, id, title, description, parse, db)
    case DeleteNote(c, id) => Notes.DeleteNote(c, id, parse, db)
    case CreateMaterial(c, body) => Materials.CreateMaterial(c, body, db)
    case DeleteMaterial(c, id) => Materials.DeleteMaterial(c, id, parse, db)
  }

  /** The database after handling `reqs` in order. */
  function Run(reqs: seq<Request>, parse: IdParser, parseDate: string -> Instant, db: Db): Db
    decreases |reqs|
  {
    if reqs == [] then db
    else Run(reqs[1..], parse, parseDate, Handle(reqs[0], parse, parseDate, db).db)
  }

  /** No user holds the admin role. */
  predicate NoAdmin(users: seq<User>) {
    forall k :: 0 <= k < |users| ==> users[k].role != Admin
  }

  /** Every handler keeps the invariant. */
  lemma HandleKeepsWellFormed(req: Request, parse: IdParser, parseDate: string -> Instant, db: Db)
    requires WellFormed(db)
    ensures WellFormed(Handle(req, parse, parseDate, db).db)
  {
  }

  /** The invariant holds after any run of requests. */
  lemma {:induction false} RunKeepsWellFormed(reqs: seq<Request>, parse: IdParser, parseDate: string -> Instant, db: Db)
    requires WellFormed(db)
    ensures WellFormed(Run(reqs, parse, parseDate, db))
    decreases |reqs|
  {
    if reqs != [] {
      HandleKeepsWellFormed(reqs[0], parse, parseDate, db);
      RunKeepsWellFormed(reqs[1..], parse, parseDate, Handle(reqs[0], parse, parseDate, db).db);
    }
  }

  /** Without an admin, no request makes one: registration offers only
      student and tutor, and the role change is behind the admin gate. */
  lemma HandleMakesNoAdmin(req: Request, parse: IdParser, parseDate: string -> Instant, db: Db)
    requires NoAdmin(db.users)
    ensures NoAdmin(Handle(req, parse, parseDate, db).db.users)
  {
  }

  /** A deployment that starts without an admin never gets one through the
      API: the first admin must be written to the store by other means. */
  lemma {:induction false} RunMakesNoAdmin(reqs: seq<Request>, parse: IdParser, parseDate: string -> Instant, db: Db)
    requires NoAdmin(db.users)
    ensures NoAdmin(Run(reqs, parse, parseDate, db).users)
    decreases |reqs|
  {
    if reqs != [] {
      HandleMakesNoAdmin(reqs[0], parse, parseDate, db);
      RunMakesNoAdmin(reqs[1..], parse, parseDate, Handle(reqs[0], parse, parseDate, db).db);
    }
  }
}

=== FILE: sessions.dfy ===
/**
 * The study-session lifecycle: creation by a tutor, approval and rejection
 * by an admin, resubmission by a tutor, and the field update that the tutor
 * route and the admin route perform identically.
 *
 * Status changes are not guarded by the current status: approve and reject
 * act on a session in any status, and resubmit moves any status that is not
 * already pending back to pending.
 */
module Sessions {
  import opened Common
  import opened Js
  import opened Store
  import opened Http
  import opened Auth

  /** A request body whose fields are spread into the stored document. */
  type Body = map<string, Value>

  /** `body[name]`, which is undefined for an absent field. */
  function Field(body: Body, name: string): Value {
    if name in body then body[name] else Undefined
  }

  /** The fields a new session must carry, in the order they are checked. */
  const RequiredSessionFields: seq<string> := [
    "title", "tutorName", "tutorEmail", "description",
    "registrationStart", "registrationEnd", "classStart", "classEnd",
    "duration", "maxStudents"]

  /** Position of the first required field that is falsy, if any. */
  function FirstMissing(body: Body, fields: seq<string>): (r: Option<nat>)
    ensures r.Some? ==> r.value < |fields| && !Truthy(Field(body, fields[r.value]))
    ensures r.Some? ==> forall j :: 0 <= j < r.value ==> Truthy(Field(body, fields[j]))
    ensures r.None? <==> forall j :: 0 <= j < |fields| ==> Truthy(Field(body, fields[j]))
  {
    FirstMatch(fields, (f: string) => !Truthy(Field(body, f)))
  }

  /**
   * The schedule's ordering, checked on three adjacent pairs only:
   * registration start < registration end, class start < class end and
   * registration end < class start. A pair is constrained only when both of
   * its dates are valid, because a comparison with an invalid date is
   * false; so with an invalid registration end nothing relates the
   * registration start to the class dates.
   */
  predicate SchedulePlausible(rs: Instant, re: Instant, cs: Instant, ce: Instant) {
    && (rs.Time? && re.Time? ==> rs.ms < re.ms)
    && (cs.Time? && ce.Time? ==> cs.ms < ce.ms)
    && (cs.Time? && re.Time? ==> re.ms < cs.ms)
  }

  /** The first of the three schedule rules the dates break, if any. */
  function ScheduleViolation(rs: Instant, re: Instant, cs: Instant, ce: Instant): (r: Option<DateRule>)
    ensures r.None? <==> SchedulePlausible(rs, re, cs, ce)
    ensures r == Some(RegistrationEndsAfterStart) ==> rs.Time? && re.Time? && rs.ms >= re.ms
    ensures r == Some(ClassEndsAfterStart) ==> cs.Time? && ce.Time? && cs.ms >= ce.ms
    ensures r == Some(ClassStartsAfterRegistration) ==> cs.Time? && re.Time? && cs.ms <= re.ms
    ensures rs.Time? && re.Time? && rs.ms >= re.ms ==> r == Some(RegistrationEndsAfterStart)
    ensures !(rs.Time? && re.Time? && rs.ms >= re.ms) && cs.Time? && ce.Time? && cs.ms >= ce.ms ==>
      r == Some(ClassEndsAfterStart)
  {
    if DateGe(rs, re) then Some(RegistrationEndsAfterStart)
    else if DateGe(cs, ce) then Some(ClassEndsAfterStart)
    else if DateLe(cs, re) then Some(ClassStartsAfterRegistration)
    else None
  }

  /** On four valid dates the rules accept exactly the strictly increasing schedules. */
  lemma ValidScheduleIffStrictlyIncreasing(rs: int, re: int, cs: int, ce: int)
    ensures ScheduleViolation(Time(rs), Time(re), Time(cs), Time(ce)).None? <==> rs < re < cs < ce
  {
  }

  /** Only adjacent pairs are compared: a registration start after the class
      start passes when the registration end between them is invalid. */
  lemma NonAdjacentDatesUnchecked()
    ensures ScheduleViolation(Time(10), InvalidDate, Time(5), Time(20)).None?
  {
  }

  /** Four invalid dates break none of the rules. */
  lemma InvalidDatesPassScheduleRules()
    ensures ScheduleViolation(InvalidDate, InvalidDate, InvalidDate, InvalidDate).None?
  {
  }

  /** The date `new Date(body[name])` makes of a body field. */
  function DateField(body: Body, name: string, parseDate: string -> Instant): Instant {
    NewDate(Field(body, name), parseDate)
  }

  /** The document a successful creation inserts: the body spread, with the
      four dates converted, no students and pending status. */
  function NewSession(body: Body, parseDate: string -> Instant): Session {
    Session(
      Field(body, "title"), Field(body, "tutorName"), Field(body, "tutorEmail"), Field(body, "description"),
      AsDate(DateField(body, "registrationStart", parseDate)),
      AsDate(DateField(body, "registrationEnd", parseDate)),
      AsDate(DateField(body, "classStart", parseDate)),
      AsDate(DateField(body, "classEnd", parseDate)),
      Field(body, "duration"), Field(body, "maxStudents"), Field(body, "registrationFee"),
      0, Pending,
      Field(body, "rejectionReason"), Field(body, "rejectionFeedback"), Field(body, "rejectedBy"))
  }

  /** The four dates of a creation request, plausibly ordered. */
  predicate BodySchedulePlausible(body: Body, parseDate: string -> Instant) {
    SchedulePlausible(
      DateField(body, "registrationStart", parseDate), DateField(body, "registrationEnd", parseDate),
      DateField(body, "classStart", parseDate), DateField(body, "classEnd", parseDate))
  }

  /** The first schedule rule the four dates of a creation request break. */
  function BodyScheduleViolation(body: Body, parseDate: string -> Instant): Option<DateRule> {
    ScheduleViolation(
      DateField(body, "registrationStart", parseDate), DateField(body, "registrationEnd", parseDate),
      DateField(body, "classStart", parseDate), DateField(body, "classEnd", parseDate))
  }

  /**
   * The validation and insert of `POST /api/create-session` once the tutor
   * gate has passed: 400 naming the first falsy required field, then 400
   * for the first broken schedule rule; otherwise the session is inserted
   * as pending with no students.
   */
  function ValidateAndInsert(body: Body, parseDate: string -> Instant, db: Db): (r: Reply)
    ensures r.code == Created <==>
      && (forall j :: 0 <= j < |RequiredSessionFields| ==> Truthy(Field(body, RequiredSessionFields[j])))
      && BodySchedulePlausible(body, parseDate)
    ensures r.code == Created ==>
      && r.detail == NewId(db.nextId)
      && r.db == db.(sessions := db.sessions[db.nextId := NewSession(body, parseDate)], nextId := db.nextId + 1)
    ensures r.detail.FieldRequired? ==>
      exists k :: 0 <= k < |RequiredSessionFields| && RequiredSessionFields[k] == r.detail.field
        && !Truthy(Field(body, r.detail.field))
        && forall j :: 0 <= j < k ==> Truthy(Field(body, RequiredSessionFields[j]))
    ensures r.detail.FieldRequired? <==>
      exists j :: 0 <= j < |RequiredSessionFields| && !Truthy(Field(body, RequiredSessionFields[j]))
    ensures r.detail.FieldRequired? ==> r.code == BadRequest
    ensures r.detail.BadSchedule? ==> r.code == BadRequest && !BodySchedulePlausible(body, parseDate)
    ensures (forall j :: 0 <= j < |RequiredSessionFields| ==> Truthy(Field(body, RequiredSessionFields[j])))
            && !BodySchedulePlausible(body, parseDate) ==>
      r.code == BadRequest && r.detail == BadSchedule(BodyScheduleViolation(body, parseDate).value)
    ensures r.code != Created ==> r.db == db
    ensures WellFormed(db) ==> WellFormed(r.db)
  {
    match FirstMissing(body, RequiredSessionFields)
    case Some(k) => Reply(BadRequest, FieldRequired(RequiredSessionFields[k]), db)
    case None =>
      match BodyScheduleViolation(body, parseDate)
      case Some(rule) => Reply(BadRequest, BadSchedule(rule), db)
      case None =>
        var s := NewSession(body, parseDate);
        InsertSessionKeepsWellFormed(db, s);
        Reply(Created, NewId(db.nextId), db.(sessions := db.sessions[db.nextId := s], nextId := db.nextId + 1))
  }

  /** `POST /api/create-session` (tutor). */
  function CreateSession(cred: Credential, body: Body, parseDate: string -> Instant, db: Db): (r: Reply)
    ensures Admit(cred, Tutor, db.users).Refused? ==> r == Refuse(Admit(cred, Tutor, db.users).code, db)
    ensures Admit(cred, Tutor, db.users).Admitted? ==> r == ValidateAndInsert(body, parseDate, db)
    ensures r.code == Created ==>
      && db.nextId in r.db.sessions
      && r.db == db.(sessions := db.sessions[db.nextId := r.db.sessions[db.nextId]], nextId := db.nextId + 1)
      && r.db.sessions[db.nextId].status == Pending
      && r.db.sessions[db.nextId].currentStudents == 0
      && r.db.sessions[db.nextId].tutorEmail == Field(body, "tutorEmail")
      && r.db.sessions[db.nextId].rejectedBy == Field(body, "rejectedBy")
    ensures WellFormed(db) ==> WellFormed(r.db)
  {
    match Admit(cred, Tutor, db.users)
    case Refused(c) => Refuse(c, db)
    case Admitted(_) =>
      InsertedSessionIsPending(body, parseDate, db);
      ValidateAndInsert(body, parseDate, db)
  }

  /** A session the creation route inserts is pending, has no students and
      keeps the tutor and rejection fields of the body. */
  lemma InsertedSessionIsPending(body: Body, parseDate: string -> Instant, db: Db)
    ensures var r := ValidateAndInsert(body, parseDate, db);
      r.code == Created ==>
        && db.nextId in r.db.sessions
        && r.db == db.(sessions := db.sessions[db.nextId := r.db.sessions[db.nextId]], nextId := db.nextId + 1)
        && r.db.sessions[db.nextId].status == Pending
        && r.db.sessions[db.nextId].currentStudents == 0
        && r.db.sessions[db.nextId].tutorEmail == Field(body, "tutorEmail")
        && r.db.sessions[db.nextId].rejectedBy == Field(body, "rejectedBy")
  {
  }

  /** The id a path parameter names, when it names a stored session. */
  predicate Names(parse: IdParser, sessionId: string, db: Db) {
    parse(sessionId).Some? && parse(sessionId).value in db.sessions
  }

  /** `db` with the session `id` replaced and every other document kept. */
  function WithSession(db: Db, id: Id, s: Session): Db {
    db.(sessions := db.sessions[id := s])
  }

  /**
   * `PATCH /api/sessions/:sessionId/approve` (admin): the session becomes
   * approved, whatever its status was, and takes the fee from the body.
   * A malformed id throws (500); an unknown id is 404.
   */
  function ApproveSession(cred: Credential, sessionId: string, fee: Value, parse: IdParser, db: Db): (r: Reply)
    ensures r.code == Ok <==> Admit(cred, Admin, db.users).Admitted? && Names(parse, sessionId, db)
    ensures Admit(cred, Admin, db.users).Refused? ==> r == Refuse(Admit(cred, Admin, db.users).code, db)
    ensures Admit(cred, Admin, db.users).Admitted? ==>
      (r.code == NotFound <==> parse(sessionId).Some? && parse(sessionId).value !in db.sessions)
    ensures Admit(cred, Admin, db.users).Admitted? ==> (r.code == ServerError <==> parse(sessionId).None?)
    ensures r.code == Ok ==>
      var id := parse(sessionId).value;
      && id in r.db.sessions
      && r.db == WithSession(db, id, r.db.sessions[id])
      && r.db.sessions[id].status == Approved
      && r.db.sessions[id].registrationFee == Stored(fee)
      && r.db.sessions[id] == db.sessions[id].(status := r.db.sessions[id].status, registrationFee := r.db.sessions[id].registrationFee)
    ensures r.code != Ok ==> r.db == db
    ensures WellFormed(db) ==> WellFormed(r.db)
  {
    match Admit(cred, Admin, db.users)
    case Refused(c) => Refuse(c, db)
    case Admitted(_) =>
      match parse(sessionId)
      case None => Refuse(ServerError, db)
      case Some(id) =>
        if id !in db.sessions then Refuse(NotFound, db)
        else Reply(Ok, NoDetail, WithSession(db, id, db.sessions[id].(status := Approved, registrationFee := Stored(fee))))
  }

  /**
   * `PATCH /api/sessions/:id/reject` (admin): both reason and feedback must
   * be non-empty (400, checked before the id is looked at); the session
   * becomes rejected, from any status, recording who rejected it.
   */
  function RejectSession(cred: Credential, id: string, reason: Value, feedback: Value, parse: IdParser, db: Db): (r: Reply)
    ensures Admit(cred, Admin, db.users).Refused? ==> r == Refuse(Admit(cred, Admin, db.users).code, db)
    ensures Admit(cred, Admin, db.users).Admitted? ==>
      (!Truthy(reason) || !Truthy(feedback) ==> r == Refuse(BadRequest, db))
    ensures Admit(cred, Admin, db.users).Admitted? && Truthy(reason) && Truthy(feedback) ==>
      && (r.code == ServerError <==> parse(id).None?)
      && (r.code == NotFound <==> parse(id).Some? && parse(id).value !in db.sessions)
    ensures r.code == Ok <==>
      Admit(cred, Admin, db.users).Admitted? && Truthy(reason) && Truthy(feedback) && Names(parse, id, db)
    ensures r.code == Ok ==>
      var sid := parse(id).value;
      sid in r.db.sessions &&
      var s := r.db.sessions[sid];
      && r.db == WithSession(db, sid, s)
      && s.status == Rejected
      && s.rejectionReason == reason && s.rejectionFeedback == feedback
      && cred.Token? && s.rejectedBy == Str(cred.email)
      && s == db.sessions[sid].(status := s.status, rejectionReason := s.rejectionReason,
                               rejectionFeedback := s.rejectionFeedback, rejectedBy := s.rejectedBy)
    ensures r.code != Ok ==> r.db == db
    ensures WellFormed(db) ==> WellFormed(r.db)
  {
    match Admit(cred, Admin, db.users)
    case Refused(c) => Refuse(c, db)
    case Admitted(admin) =>
      if !Truthy(reason) || !Truthy(feedback) then Refuse(BadRequest, db)
      else
        match parse(id)
        case None => Refuse(ServerError, db)
        case Some(sid) =>
          if sid !in db.sessions then Refuse(NotFound, db)
          else
            var s := db.sessions[sid].(status := Rejected, rejectionReason := reason,
                                       rejectionFeedback := feedback, rejectedBy := Str(admin));
            Reply(Ok, NoDetail, WithSession(db, sid, s))
  }

  /**
   * `PATCH /api/sessions/resubmit/:sessionId` (tutor): the session goes back
   * to pending. When nothing is modified — the id is unknown, or the session
   * is already pending — the answer is 400.
   */
  function ResubmitSession(cred: Credential, sessionId: string, parse: IdParser, db: Db): (r: Reply)
    ensures r.code == Ok <==>
      && Admit(cred, Tutor, db.users).Admitted?
      && sessionId != ""
      && Names(parse, sessionId, db)
      && db.sessions[parse(sessionId).value].status != Pending
    ensures Admit(cred, Tutor, db.users).Refused? ==> r == Refuse(Admit(cred, Tutor, db.users).code, db)
    ensures Admit(cred, Tutor, db.users).Admitted? ==> (sessionId == "" ==> r == Refuse(BadRequest, db))
    ensures Admit(cred, Tutor, db.users).Admitted? && sessionId != "" ==> (r.code == ServerError <==> parse(sessionId).None?)
    ensures Admit(cred, Tutor, db.users).Admitted? && parse(sessionId).Some? && sessionId != "" ==>
      (r.code == BadRequest <==> !Names(parse, sessionId, db) || db.sessions[parse(sessionId).value].status == Pending)
    ensures r.code == Ok ==>
      var id := parse(sessionId).value;
      r.db == WithSession(db, id, db.sessions[id].(status := Pending))
    ensures r.code != Ok ==> r.db == db
    ensures WellFormed(db) ==> WellFormed(r.db)
  {
    match Admit(cred, Tutor, db.users)
    case Refused(c) => Refuse(c, db)
    case Admitted(_) =>
      if sessionId == "" then Refuse(BadRequest, db)
      else
        match parse(sessionId)
        case None => Refuse(ServerError, db)
        case Some(id) =>
          if id !in db.sessions || db.sessions[id].status == Pending then Refuse(BadRequest, db)
          else Reply(Ok, NoDetail, WithSession(db, id, db.sessions[id].(status := Pending)))
  }

  /** The body of both session update routes. */
  datatype SessionEdit = SessionEdit(
    title: Value,
    description: Value,
    maxStudents: Value,
    registrationStart: Value,
    registrationEnd: Value,
    classStart: Value,
    classEnd: Value,
    registrationFee: Value)

  /** `parseInt(fee) || 0`. */
  function FeeOf(fee: Value): (n: int)
    ensures ParseInt(fee).Int? ==> n == ParseInt(fee).i
    ensures ParseInt(fee).NaN? ==> n == 0
  {
    IntOr(fee, 0)
  }

  /** The fee a session update stores: a number is kept, an integer text is
      its value, and a missing or empty fee is 0. */
  lemma FeeOfValues(n: int, s: string)
    ensures FeeOf(Num(n)) == n
    ensures IsIntegerText(s) ==> FeeOf(Str(s)) == IntegerValue(s)
    ensures FeeOf(Undefined) == 0 && FeeOf(Str("")) == 0
  {
    IntOrOfNumber(n, 0);
    IntOrOfText(s, 0);
    IntOrOfText("", 0);
  }

  /** Texts on which the fee differs from what `Number` would read: "12px"
      is stored as 12, "4.5" as 4 and "0b101" as 0. */
  lemma FeeOfOddTexts()
    ensures FeeOf(Str("12px")) == 12
    ensures FeeOf(Str("4.5")) == 4
    ensures FeeOf(Str("0b101")) == 0
  {
    CoercionsOfUnit();
    CoercionsOfFraction();
    CoercionsOfBinary();
  }

  /** The fixed field set an update writes over a session. */
  function Edited(s: Session, edit: SessionEdit): Session {
    s.(title := Stored(edit.title), description := Stored(edit.description),
       maxStudents := Stored(edit.maxStudents),
       registrationStart := AsSent(Stored(edit.registrationStart)),
       registrationEnd := AsSent(Stored(edit.registrationEnd)),
       classStart := AsSent(Stored(edit.classStart)),
       classEnd := AsSent(Stored(edit.classEnd)),
       registrationFee := Num(FeeOf(edit.registrationFee)))
  }

  /**
   * What both update routes do once their gate has admitted the caller:
   * title and description are required (400); a malformed id throws (500);
   * an unknown id is 404; otherwise the fixed field set is written and
   * status, tutor and enrolment are left alone.
   */
  function UpdateSessionFields(sessionId: string, edit: SessionEdit, parse: IdParser, db: Db): (r: Reply)
    ensures r.code == Ok <==> Truthy(edit.title) && Truthy(edit.description) && Names(parse, sessionId, db)
    ensures !Truthy(edit.title) || !Truthy(edit.description) ==> r == Refuse(BadRequest, db)
    ensures Truthy(edit.title) && Truthy(edit.description) && parse(sessionId).Some? ==>
      (r.code == NotFound <==> parse(sessionId).value !in db.sessions)
    ensures Truthy(edit.title) && Truthy(edit.description) ==> (r.code == ServerError <==> parse(sessionId).None?)
    ensures r.code == Ok ==>
      var id := parse(sessionId).value;
      id in db.sessions && id in r.db.sessions &&
      var before := db.sessions[id];
      var after := r.db.sessions[id];
      && r.db == WithSession(db, id, after)
      && after == before.(
           title := edit.title, description := edit.description,
           maxStudents := Stored(edit.maxStudents),
           registrationStart := AsSent(Stored(edit.registrationStart)),
           registrationEnd := AsSent(Stored(edit.registrationEnd)),
           classStart := AsSent(Stored(edit.classStart)),
           classEnd := AsSent(Stored(edit.classEnd)),
           registrationFee := after.registrationFee)
      && after.registrationFee.Num?
      && (ParseInt(edit.registrationFee).Int? ==> after.registrationFee == Num(ParseInt(edit.registrationFee).i))
      && (ParseInt(edit.registrationFee).NaN? ==> after.registrationFee == Num(0))
    ensures r.code != Ok ==> r.db == db
    ensures WellFormed(db) ==> WellFormed(r.db)
  {
    if !Truthy(edit.title) || !Truthy(edit.description) then Refuse(BadRequest, db)
    else
      match parse(sessionId)
      case None => Refuse(ServerError, db)
      case Some(id) =>
        if id !in db.sessions then Refuse(NotFound, db)
        else Reply(Ok, NoDetail, WithSession(db, id, Edited(db.sessions[id], edit)))
  }

  /** `PATCH /api/sessions/:id/tutor`. */
  function UpdateSessionByTutor(cred: Credential, sessionId: string, edit: SessionEdit, parse: IdParser, db: Db): (r: Reply)
    ensures Admit(cred, Tutor, db.users).Refused? ==> r == Refuse(Admit(cred, Tutor, db.users).code, db)
    ensures Admit(cred, Tutor, db.users).Admitted? ==> r == UpdateSessionFields(sessionId, edit, parse, db)
    ensures r.code == Ok ==> Admit(cred, Tutor, db.users).Admitted? && Names(parse, sessionId, db)
    ensures WellFormed(db) ==> WellFormed(r.db)
  {
    match Admit(cred, Tutor, db.users)
    case Refused(c) => Refuse(c, db)
    case Admitted(_) => UpdateSessionFields(sessionId, edit, parse, db)
  }

  /** `PATCH /api/sessions/:id`. */
  function UpdateSessionByAdmin(cred: Credential, sessionId: string, edit: SessionEdit, parse: IdParser, db: Db): (r: Reply)
    ensures Admit(cred, Admin, db.users).Refused? ==> r == Refuse(Admit(cred, Admin, db.users).code, db)
    ensures Admit(cred, Admin, db.users).Admitted? ==> r == UpdateSessionFields(sessionId, edit, parse, db)
    ensures r.code == Ok ==> Admit(cred, Admin, db.users).Admitted? && Names(parse, sessionId, db)
    ensures WellFormed(db) ==> WellFormed(r.db)
  {
    match Admit(cred, Admin, db.users)
    case Refused(c) => Refuse(c, db)
    case Admitted(_) => UpdateSessionFields(sessionId, edit, parse, db)
  }

  /** The tutor route and the admin route do the same thing once past their gates. */
  lemma UpdateRoutesAgree(tutor: Credential, admin: Credential, sessionId: string, edit: SessionEdit, parse: IdParser, db: Db)
    requires Admit(tutor, Tutor, db.users).Admitted?
    requires Admit(admin, Admin, db.users).Admitted?
    ensures UpdateSessionByTutor(tutor, sessionId, edit, parse, db) == UpdateSessionByAdmin(admin, sessionId, edit, parse, db)
  {
  }

  /** Resubmission is not idempotent: a second resubmission of the same session is 400. */
  lemma ResubmitTwiceIsRefused(cred: Credential, sessionId: string, parse: IdParser, db: Db)
    requires ResubmitSession(cred, sessionId, parse, db).code == Ok
    ensures var db' := ResubmitSession(cred, sessionId, parse, db).db;
      ResubmitSession(cred, sessionId, parse, db') == Refuse(BadRequest, db')
  {
  }

  /** Reject then resubmit brings a session back to pending; approve then
      works again, so the status machine has a cycle through every state. */
  lemma RejectResubmitApprove(admin: Credential, tutor: Credential, sessionId: string, reason: Value, feedback: Value,
                              fee: Value, parse: IdParser, db: Db)
    requires Admit(admin, Admin, db.users).Admitted? && Admit(tutor, Tutor, db.users).Admitted?
    requires Truthy(reason) && Truthy(feedback) && sessionId != "" && Names(parse, sessionId, db)
    ensures
      var id := parse(sessionId).value;
      var db1 := RejectSession(admin, sessionId, reason, feedback, parse, db).db;
      var db2 := ResubmitSession(tutor, sessionId, parse, db1).db;
      var db3 := ApproveSession(admin, sessionId, fee, parse, db2).db;
      && db1.sessions[id].status == Rejected
      && ResubmitSession(tutor, sessionId, parse, db1).code == Ok
      && db2.sessions[id].status == Pending
      && ApproveSession(admin, sessionId, fee, parse, db2).code == Ok
      && db3.sessions[id].status == Approved
  {
  }
}

=== FILE: store.dfy ===
/**
 * The six collections of the database as immutable records.
 *
 * Users live in a sequence in natural (insertion) order, because the role
 * gates look a user up by email and take the first match. The other
 * collections are looked up by id only and are maps. Ids are handed out
 * from one counter, `nextId`, so an inserted document always gets an id no
 * stored document has.
 */
module Store {
  import opened Common
  import opened Js

  type Id = nat
  type Email = string

  /** `ObjectId.isValid(s)` and `new ObjectId(s)` in one: the id a path or
      body text denotes, or None where the driver rejects the text. */
  type IdParser = string -> Option<Id>

  datatype Role = Student | Tutor | Admin

  datatype User = User(id: Id, email: Email, name: Value, photoURL: Value, role: Role)

  datatype Status = Pending | Approved | Rejected

  /** A stored date field: a Date after creation; the raw body value once an
      update has written it. */
  datatype SessionDate = AsDate(instant: Instant) | AsSent(raw: Value)

  datatype Session = Session(
    title: Value,
    tutorName: Value,
    tutorEmail: Value,
    description: Value,
    registrationStart: SessionDate,
    registrationEnd: SessionDate,
    classStart: SessionDate,
    classEnd: SessionDate,
    duration: Value,
    maxStudents: Value,
    registrationFee: Value,
    currentStudents: int,
    status: Status,
    rejectionReason: Value,
    rejectionFeedback: Value,
    rejectedBy: Value)

  /** A review keeps the session id as the text the student sent. */
  datatype Review = Review(
    sessionId: string,
    studentEmail: Email,
    studentName: Value,
    rating: Number,
    comment: Value)

  datatype Booking = Booking(
    sessionId: Id,
    studentEmail: Value,
    studentName: Value,
    tutorEmail: Value,
    tutorName: Value,
    registrationFee: Value,
    sessionTitle: Value,
    classStart: Instant,
    classEnd: Instant)

  datatype Material = Material(
    title: Value,
    sessionId: Value,
    sessionTitle: Value,
    tutorEmail: Value,
    imageUrl: Value,
    driveLink: Value)

  datatype Note = Note(email: Value, title: Value, description: Value)

  datatype Db = Db(
    users: seq<User>,
    sessions: map<Id, Session>,
    reviews: map<Id, Review>,
    bookings: map<Id, Booking>,
    materials: map<Id, Material>,
    notes: map<Id, Note>,
    nextId: Id)

  predicate KeysBelow<T>(m: map<Id, T>, bound: Id) {
    forall k :: k in m ==> k < bound
  }

  /** Some user is registered under `e`. */
  predicate HasAccount(users: seq<User>, e: Email) {
    exists k :: 0 <= k < |users| && users[k].email == e
  }

  predicate UniqueEmails(users: seq<User>) {
    forall j, k :: 0 <= j < k < |users| ==> users[j].email != users[k].email
  }

  predicate UniqueUserIds(users: seq<User>) {
    forall j, k :: 0 <= j < k < |users| ==> users[j].id != users[k].id
  }

  /** Two reviews by the same student for the same session id text. */
  predicate SameAuthorship(a: Review, b: Review) {
    a.sessionId == b.sessionId && a.studentEmail == b.studentEmail
  }

  /** At most one review per (session id, student email). */
  predicate OneReviewPerStudent(reviews: map<Id, Review>) {
    forall a, b :: a in reviews && b in reviews && a != b ==> !SameAuthorship(reviews[a], reviews[b])
  }

  /** The invariant the handlers maintain. */
  predicate WellFormed(db: Db) {
    && (forall k :: 0 <= k < |db.users| ==> db.users[k].id < db.nextId)
    && UniqueUserIds(db.users)
    && UniqueEmails(db.users)
    && KeysBelow(db.sessions, db.nextId)
    && KeysBelow(db.reviews, db.nextId)
    && KeysBelow(db.bookings, db.nextId)
    && KeysBelow(db.materials, db.nextId)
    && KeysBelow(db.notes, db.nextId)
    && OneReviewPerStudent(db.reviews)
  }

  /** Inserting a session under the next id, and advancing the id, keeps the
      invariant. */
  lemma InsertSessionKeepsWellFormed(db: Db, s: Session)
    ensures WellFormed(db) ==> WellFormed(db.(sessions := db.sessions[db.nextId := s], nextId := db.nextId + 1))
  {
  }

  /** Inserting a review under the next id, when the student has no review
      for the same session id text yet, and advancing the id, keeps the
      invariant. */
  lemma InsertReviewKeepsWellFormed(db: Db, rv: Review)
    requires forall k :: k in db.reviews ==> !SameAuthorship(db.reviews[k], rv)
    ensures WellFormed(db) ==> WellFormed(db.(reviews := db.reviews[db.nextId := rv], nextId := db.nextId + 1))
  {
  }

  /** Replacing a user by one with the same id and email keeps the invariant. */
  lemma ReplaceUserKeepsWellFormed(db: Db, k: int, u: User)
    requires 0 <= k < |db.users|
    requires u.id == db.users[k].id && u.email == db.users[k].email
    ensures WellFormed(db) ==> WellFormed(db.(users := db.users[k := u]))
  {
  }
}

=== FILE: users.dfy ===
/**
 * Registration (`POST /api/registerUser`) and the admin's role change
 * (`PATCH /api/users/:userId/role`).
 */
module Users {
  import opened Common
  import opened Js
  import opened Store
  import opened Http
  import opened Auth

  datatype Registration = Registration(email: Value, role: Value, name: Value, photoURL: Value)

  /** The roles a user may choose at registration; admin is not one of them. */
  function SelfServiceRole(v: Value): (r: Option<Role>)
    ensures r.Some? <==> v in {Str("student"), Str("tutor")}
    ensures r.Some? ==> r.value != Admin
  {
    if v == Str("student") then Some(Student)
    else if v == Str("tutor") then Some(Tutor)
    else None
  }

  /** The roles an admin may assign. */
  function AssignableRole(v: Value): (r: Option<Role>)
    ensures r.Some? <==> v in {Str("admin"), Str("tutor"), Str("student")}
    ensures v == Str("admin") ==> r == Some(Admin)
    ensures v == Str("tutor") ==> r == Some(Tutor)
    ensures v == Str("student") ==> r == Some(Student)
  {
    if v == Str("admin") then Some(Admin)
    else if v == Str("tutor") then Some(Tutor)
    else if v == Str("student") then Some(Student)
    else None
  }

  /** The role a registration body asks for, once it has passed the role check. */
  function RequestedRole(v: Value): Role {
    if v == Str("student") then Student else Tutor
  }

  /**
   * `POST /api/registerUser`: token only, no role gate. Missing email or
   * role is 400, a body email other than the verified one is 403, a role
   * other than student or tutor is 401, an email already registered is 409;
   * otherwise exactly one user is appended.
   */
  function RegisterUser(cred: Credential, body: Registration, db: Db): (r: Reply)
    ensures Authenticate(cred).Refused? ==> r == Refuse(Authenticate(cred).code, db)
    ensures r.code == Ok <==>
      && cred.Token? && cred.email != ""
      && body.email == Str(cred.email)
      && body.role in {Str("student"), Str("tutor")}
      && !HasAccount(db.users, cred.email)
    ensures r.code == Ok ==>
      && r.db.users == db.users + [User(db.nextId, cred.email, Stored(body.name), Stored(body.photoURL), RequestedRole(body.role))]
      && r.db == db.(users := r.db.users, nextId := db.nextId + 1)
      && r.detail == NewId(db.nextId)
    ensures r.code != Ok ==> r.db == db
    ensures forall k :: 0 <= k < |r.db.users| && r.db.users[k].role == Admin ==> k < |db.users|
    ensures cred.Token? ==> (r.code == BadRequest <==> !Truthy(body.email) || !Truthy(body.role))
    ensures r.code == Forbidden <==>
      cred.Token? && Truthy(body.email) && Truthy(body.role) && body.email != Str(cred.email)
    ensures r.code == Conflict <==>
      && cred.Token? && cred.email != ""
      && body.email == Str(cred.email)
      && body.role in {Str("student"), Str("tutor")}
      && HasAccount(db.users, cred.email)
    ensures cred.Token? && Truthy(body.email) && body.email == Str(cred.email) && Truthy(body.role) ==>
      (r.code == Unauthorized <==> body.role !in {Str("student"), Str("tutor")})
    ensures WellFormed(db) ==> WellFormed(r.db)
  {
    match Authenticate(cred)
    case Refused(c) => Refuse(c, db)
    case Admitted(e) =>
      if !Truthy(body.email) || !Truthy(body.role) then Refuse(BadRequest, db)
      else if body.email != Str(e) then Refuse(Forbidden, db)
      else
        match SelfServiceRole(body.role)
        case None => Refuse(Unauthorized, db)
        case Some(role) =>
          if FindByEmail(db.users, e).Some? then Refuse(Conflict, db)
          else
            var user := User(db.nextId, e, Stored(body.name), Stored(body.photoURL), role);
            Reply(Ok, NewId(db.nextId), db.(users := db.users + [user], nextId := db.nextId + 1))
  }

  /**
   * `PATCH /api/users/:userId/role` (admin): a role outside admin, tutor and
   * student is 400; a malformed id throws (500); an unknown id is 404;
   * otherwise that one user's role is replaced.
   */
  function UpdateUserRole(cred: Credential, userId: string, role: Value, parse: IdParser, db: Db): (r: Reply)
    ensures Admit(cred, Admin, db.users).Refused? ==> r == Refuse(Admit(cred, Admin, db.users).code, db)
    ensures Admit(cred, Admin, db.users).Admitted? ==>
      (r.code == BadRequest <==> role !in {Str("admin"), Str("tutor"), Str("student")})
    ensures Admit(cred, Admin, db.users).Admitted? ==> (r.code == NotFound <==>
      && role in {Str("admin"), Str("tutor"), Str("student")}
      && parse(userId).Some?
      && forall k :: 0 <= k < |db.users| ==> db.users[k].id != parse(userId).value)
    ensures r.code == Ok ==>
      && AssignableRole(role).Some? && parse(userId).Some?
      && |r.db.users| == |db.users|
      && r.db == db.(users := r.db.users)
      && (exists k :: 0 <= k < |db.users| && db.users[k].id == parse(userId).value
            && r.db.users[k] == db.users[k].(role := AssignableRole(role).value)
            && forall j :: 0 <= j < |db.users| && j != k ==> r.db.users[j] == db.users[j])
    ensures Admit(cred, Admin, db.users).Admitted? && AssignableRole(role).Some? ==>
      (r.code == ServerError <==> parse(userId).None?)
    ensures (Admit(cred, Admin, db.users).Admitted? && AssignableRole(role).Some? && parse(userId).Some?
             && exists k :: 0 <= k < |db.users| && db.users[k].id == parse(userId).value) ==> r.code == Ok
    ensures r.code != Ok ==> r.db == db
    ensures WellFormed(db) ==> WellFormed(r.db)
  {
    match Admit(cred, Admin, db.users)
    case Refused(c) => Refuse(c, db)
    case Admitted(_) =>
      match AssignableRole(role)
      case None => Refuse(BadRequest, db)
      case Some(newRole) =>
        match parse(userId)
        case None => Refuse(ServerError, db)
        case Some(id) =>
          match FirstMatch(db.users, (u: User) => u.id == id)
          case None => Refuse(NotFound, db)
          case Some(k) =>
            ReplaceUserKeepsWellFormed(db, k, db.users[k].(role := newRole));
            Reply(Ok, NoDetail, db.(users := db.users[k := db.users[k].(role := newRole)]))
  }

  /** A user who has just registered passes the gate of the role they chose. */
  lemma RegisteredUserPassesGate(e: Email, body: Registration, db: Db)
    requires WellFormed(db)
    requires RegisterUser(Token(e), body, db).code == Ok
    ensures Admit(Token(e), RequestedRole(body.role), RegisterUser(Token(e), body, db).db.users) == Admitted(e)
  {
    var users := RegisterUser(Token(e), body, db).db.users;
    assert EarliestAccount(users, e, |db.users|);
  }

  /** Registering the same email a second time is a conflict and changes nothing. */
  lemma RegisterTwiceConflicts(e: Email, body: Registration, db: Db)
    requires RegisterUser(Token(e), body, db).code == Ok
    ensures var db' := RegisterUser(Token(e), body, db).db;
      RegisterUser(Token(e), body, db') == Refuse(Conflict, db')
  {
    var db' := RegisterUser(Token(e), body, db).db;
    assert db'.users[|db.users|].email == e;
  }

  /** After an admin changes a user's role, that user passes the gate of the new role. */
  lemma RoleChangeTakesEffect(cred: Credential, userId: string, role: Value, parse: IdParser, db: Db)
    requires WellFormed(db)
    requires UpdateUserRole(cred, userId, role, parse, db).code == Ok
    ensures var db' := UpdateUserRole(cred, userId, role, parse, db).db;
      exists k :: 0 <= k < |db.users| && db.users[k].id == parse(userId).value &&
        Admit(Token(db.users[k].email), AssignableRole(role).value, db'.users) == Admitted(db.users[k].email)
  {
  }
}
